=== FILE: README.md ===
# PathGreen-AI fleet-emissions core, modelled in Dafny

PathGreen-AI monitors a fleet of delivery trucks in Bangalore. It turns GPS
and engine telemetry into CO2 figures and alerts, and answers questions
about emission regulations. This project models the deterministic logic
behind that, with every random draw passed in as a parameter:

- **Transforms** (`transforms.dfy`) holds the emission and alert rules of
  the streaming pipeline:
  - the piecewise-linear speed penalty;
  - the per-reading CO2 formula, with its idle and moving branches;
  - the priority-ordered alert classifier;
  - the simplified per-row expression the emission table is built from.
- **Fleet** (`fleet.dfy`) is the fallback fleet simulator: five trucks,
  advanced tick by tick through movement, emission spikes, extended idle,
  high emission and gradual improvement.
- **Sanitize** (`sanitize.dfy`) is the prompt-injection screen and the length
  cut applied to chat queries.
- **Chunking** and **Retrieval** (`chunking.dfy`, `retrieval.dfy`) form the
  keyword fallback retriever:
  - section and greedy paragraph chunking of regulation documents;
  - term-count scoring with keyword boosts;
  - a stable best-first top-k;
  - the context text and the citation names.
- **Gps** (`gps.dfy`) is the simulated GPS and telemetry streams: the four
  closed delivery routes, waypoint interpolation, and the per-update state
  machines for route position and engine telemetry.
- **MockAnswer** (`mock.dfy`) is the keyword router that picks a canned
  answer when no language model is configured.
- **Text** (`text.dfy`) holds the string operations these rely on, with the
  meaning Python gives them: `lower`, `strip`, `split`, `join`, `count` and
  `in`.
- **Schema** and **Wrappers** hold the shared alert enumerations and
  `Option`.

Python floats are modelled as exact `real`s. `int(x)` on a float is written
out as truncation toward zero. The regular-expression test, `Path.stem`,
`str.title` and the `atan2` heading are function-typed parameters. Random
draws are records (`TickDraw`, `GpsDraw`, `TelemetryDraw`) whose ranges are
stated by a validity predicate. f-string messages are kept as the values
they are formatted from.

## Model

| member | source | states |
|---|---|---|
| Transforms.SpeedPenalty | backend/transforms.py:42-57 | The penalty is exactly 1 for speeds in [40, 70], and strictly greater than 1 everywhere outside that band. |
| Transforms.SpeedPenaltyShape | backend/transforms.py:50-57 | Both band edges have penalty 1. Below 40 the penalty does not increase as speed rises toward the band. Above 70 it does not decrease as speed rises. |
| Transforms.Co2Emission | backend/transforms.py:60-84 | A stationary reading (speed < 1) has rate 0 and is charged 8.5 g per idle second, capped at ten seconds (so 0 to 85 g for a non-negative idle time). A moving reading is charged rate × distance, and with a non-negative load its rate is at least 650 g/km plus 25 g per tonne. The distance defaults to 0.1 km per reading. |
| Transforms.DetermineAlert | backend/transforms.py:87-125 | Idle ≥ 120 s gives HIGH_IDLE/CRITICAL, and idle in [60, 120) gives HIGH_IDLE/WARNING, whatever the rate. Below 60 s the alert is EMISSION_SPIKE exactly when rate > 35 and speed > 5. The alert type is null exactly when the severity is INFO, exactly when the message is null, and exactly when neither rule fires. Every message names the vehicle. The critical idle message carries the idle seconds, so does the warning idle message, and the spike message carries the rate. |
| Transforms.MovingTruckAlwaysSpikes | backend/transforms.py:60-125 | Chaining the two helpers: a loaded truck faster than 5 km/h that has idled under a minute is always classified EMISSION_SPIKE/WARNING. Its rate can never fall to the 35 g/km threshold. |
| Transforms.ComputeEmissionRow | backend/transforms.py:185-240 | The per-row expression copies the identity and position fields. It never yields EMISSION_SPIKE or HIGH_EMISSION. Its alert type is null exactly when the severity is INFO. Stationary rows have rate 0 and at most 85 g. |
| Transforms.RowAlertMatchesIdleBranches | backend/transforms.py:219-237 | For idle ≥ 60 the row's alert type and severity equal the classifier's, whatever the rate. Below 60 the row has no alert where the classifier would look for a spike. |
| Transforms.RowRateOmitsSpeedPenalty | backend/transforms.py:209-218 | For a moving row with non-negative load, the helper's rate and grams are the row's multiplied by the speed penalty. The two agree inside [40, 70], and the helper's rate is strictly larger outside it. |
| Transforms.IdleRowMatchesHelper | backend/transforms.py:209-218 | For a stationary row with non-negative idle time, the row's grams and rate equal the helper's. |
| Sanitize.SanitizeQuery | backend/main.py:98-108 | A query is flagged exactly when some injection pattern matches its lower-cased, stripped form, and a flagged query is returned unchanged. A safe query comes back as its first min(len, 500) characters: a prefix of the input, which is the input itself when it has at most 500 characters. |
| Sanitize.VerdictDependsOnNormalisedText | backend/main.py:100-104 | Two queries with the same lower-cased, stripped text get the same verdict. |
| Fleet.GenerateRoutes | backend/main.py:230-256 | The simulator builds one truck per vehicle id, in order. Each has idle time 0, its configured status and its base position. Each starts with its configured CO2 level (450, 520, 480, 850, 410), all in [350, 1500]. A MOVING truck takes its drawn speed and any other starts at speed 0, so with speeds drawn from [30, 60] a truck's speed is 0 exactly when its status is not MOVING. |
| Fleet.NewSimulator | backend/main.py:226-228 | A new simulator is at tick 0 with one truck per vehicle id, in order, each not yet idle and with CO2 in [350, 1500]. |
| Fleet.StepTruck | backend/main.py:264-304 | A MOVING truck jitters its position and resets its idle time. Its new speed is its old speed plus the drawn step, clamped to [20, 70], which makes the speed a clamped random walk. Any other truck keeps its position and speed and gains 0.5 idle seconds. The rules are tried in priority order. A spike roll above 0.97 sets WARNING, adds the spike to CO2 capped at 1500, and raises EMISSION_SPIKE naming the new CO2. Otherwise idle time above 120 s keeps CO2, sets CRITICAL exactly when CO2 exceeds 800 (WARNING otherwise), and raises HIGH_IDLE with that severity naming the truncated idle seconds. Otherwise CO2 above 1000 sets CRITICAL and raises HIGH_EMISSION naming the CO2. Otherwise no alert is raised, CO2 decays to no less than 350, and the status is IDLE exactly when the speed is below 5, MOVING otherwise. An alert is raised exactly when the new status is WARNING or CRITICAL, and its severity is that status. With valid draws, CO2 stays in [350, 1500]. |
| Fleet.NextTick | backend/main.py:258-335 | The tick count grows by one. There is one update per truck, in route order, each being that truck's step. There is one alert per truck that raised one, in route order, each stamped with the clock reading taken for that truck's alert. With valid draws a fleet in the CO2 band stays in it. |
| Fleet.AlertingIndices | backend/main.py:306-314 | The alert positions are exactly the trucks that raised an alert, listed in increasing order. |
| Fleet.TruckRun | backend/main.py:258-304 | Over consecutive ticks, the first tick steps the starting truck, and every later tick steps the truck that the previous tick left, with that tick's draw. There is one report per tick. |
| Fleet.ExtendedIdleIsAbsorbing | backend/main.py:266-291 | Once a stopped truck has over 120 idle seconds, it raises an alert on every later tick. Its idle time grows by 0.5 each tick, and it never becomes MOVING again. |
| Fleet.Co2StaysInBand | backend/main.py:277-302 | Over any run with valid draws, a truck's CO2 stays in [350, 1500]. |
| Text.SplitJoin | backend/rag.py:280-280 | Joining the pieces of `split(sep)` with `sep` gives back the string. |
| Chunking.PackParagraphs | backend/rag.py:292-311 | Paragraph packing meets the reference definition of greedy packing. The groups cover the paragraphs in order. Every paragraph after a group's first fitted when it was added. Every group was closed because the next paragraph did not fit. |
| Chunking.PackedGroupBound | backend/rag.py:296-305 | A packed group whose stripped text exceeds the chunk size consists of a single paragraph that is itself longer than the chunk size. |
| Chunking.KeptGroupsLoseOnlySpace | backend/rag.py:306-311 | The chunked paragraphs are a prefix of the section's paragraphs. Every paragraph that is dropped is whitespace only. |
| Chunking.SectionContents | backend/rag.py:285-311 | A section that fits becomes the single chunk `section.strip()`. A longer section's chunk texts are the stripped groups of a greedy packing of its paragraphs (reference definition), with a trailing whitespace-only group dropped. Any chunk text longer than the chunk size is one stripped paragraph that is itself too long. |
| Chunking.Sections | backend/rag.py:280-284 | Sections are the `"\n## "` pieces, and every piece after the first gets `"## "` restored in front. |
| Chunking.SectionsRestoreDocument | backend/rag.py:280-284 | Joining the sections with newlines gives back the document: sectioning loses and invents no text. |
| Chunking.ChunkDocument | backend/rag.py:275-313 | The k-th chunk has id `doc_id + "_chunk_" + k`, carries the document's source, and has as its text the k-th chunk text of the sections taken in order. The chunk size defaults to 500. |
| Chunking.PiecesHoldNoSeparator | backend/rag.py:280-293 | No section piece contains the `"\n## "` mark it was split on, and no paragraph contains a blank line `"\n\n"`. |
| Retrieval.Score | backend/rag.py:332-346 | The relevance score of a chunk (per-term occurrence counts in the lower-cased content plus 5 per boost keyword found in both) is above 0 exactly when one of the query's terms occurs in it, or when a boost keyword occurs in both the query and the chunk. |
| Retrieval.BlankQueryScoresZero | backend/rag.py:329-346 | An empty or whitespace-only query scores 0 on every chunk. |
| Retrieval.ScoreChunks | backend/rag.py:335-346 | Every kept entry has a positive score equal to its chunk's score. Every positively scoring chunk is kept. |
| Retrieval.SortByScore | backend/rag.py:348-348 | The sort yields a permutation of its input in non-increasing score order. |
| Retrieval.SortIsStable | backend/rag.py:348-348 | Entries with equal scores keep their original relative order. |
| Retrieval.TopChunks | backend/rag.py:348-352 | The context chunks number at most max_chunks. Each has a positive score, and they appear in non-increasing score order. For a positive max_chunks there are none exactly when every chunk scores 0. |
| Retrieval.TopIsRankingHead | backend/rag.py:349-349 | The context chunks are the head of the full stable ranking. |
| Retrieval.ScoreChunksTies | backend/rag.py:335-346 | For any positive score v, the scored entries with score v are exactly the chunks scoring v, in the order they were indexed. |
| Retrieval.RankedTiesInChunkOrder | backend/rag.py:335-348 | For any positive score v, the chunks scoring v appear in the ranking in the order they were indexed. |
| Retrieval.TopTiesInChunkOrder | backend/rag.py:335-349 | For any positive score v, the selected chunks scoring v are the first ones scoring v in indexing order. The cut never skips an earlier-indexed tie for a later one. |
| Retrieval.Blocks | backend/rag.py:354-357 | There is one context block per selected chunk, in order, and block i is the i-th chunk's `[Source: stem]` header, a newline and its text. |
| Retrieval.GetContext | backend/rag.py:315-359 | The text is "No regulatory context available." exactly when there are no chunks. Otherwise it is "No relevant regulatory context found." exactly when no chunk is selected. For a positive max_chunks that means every chunk scores 0. For max_chunks = 0 it is always the case. For a negative max_chunks, Python's slice from the end, it means at most -max_chunks chunks score above 0. When chunks are selected, the text is their blocks joined by the `"\n\n---\n\n"` separator. max_chunks defaults to 3. |
| Retrieval.ContextQuotesSelectedChunks | backend/rag.py:349-359 | When there are chunks, every selected chunk's block, and so its text, occurs in the context. |
| Retrieval.GetCitations | backend/rag.py:361-373 | At most three names come back. Each is the citation name of one of the first three chunks, and every one of those chunks' names is included. |
| Retrieval.CitationsIgnoreQuery | backend/rag.py:361-373 | The citations do not depend on the query. |
| Gps.RouteFor | backend/gps_connector.py:20-65 | Vehicle i drives route `["route_a", "route_b", "route_c", "route_d"][i % 4]`. That route is a closed loop of six waypoints whose last waypoint equals its first. |
| Gps.InitVehicle | backend/gps_connector.py:88-109 | A vehicle starts on its assigned route, at the first waypoint with progress 0, not idling. Its speed is the drawn speed, its heading is 0 and its idle timer is 0. |
| Gps.Interpolate | backend/gps_connector.py:111-115 | Interpolation gives wp1 at t = 0 and wp2 at t = 1. For t in [0, 1] the point lies between the two waypoints in both coordinates. |
| Numeric.Clamp | backend/gps_connector.py:141-147 | `max(lo, min(hi, x))` is at least lo, at most hi when lo ≤ hi, and x itself when x is already in range. It is lo when x ≤ lo, and hi when x ≥ hi ≥ lo. |
| Gps.UpdateVehicle | backend/gps_connector.py:124-173 | Route and waypoints are unchanged, the waypoint index stays in range, and progress stays below 1 (in [0, 1) with a non-negative minimum speed). On an idle tick: speed becomes 0, progress and index are untouched, the timer drops by the interval, idling ends exactly when the timer reaches 0, and a newly started idle period sets the timer in [30, 180]. On a moving tick: the speed is the old speed plus the drawn delta, clamped into the speed range, and progress either advances or wraps to 0 with the index moving on by one modulo the route length. The reading lies on the current leg, and its heading is the leg's bearing. |
| Gps.RunStaysOnRoute | backend/gps_connector.py:124-158 | However many updates run, a vehicle stays on its route with an index in range and progress in [0, 1). Its speed is either 0 or within the speed range. |
| Gps.UpdateTelemetry | backend/gps_connector.py:224-258 | Idle seconds grow by the interval while idle and reset to 0 otherwise, and the reading truncates them. With a valid draw, fuel ends at least 10, and at most 100 when it started at most 100. Fuel that stays at 10 or above after burning is kept as burnt, and fuel that falls below 10 is replaced by the drawn refuel level. Temperature is the old temperature eased a tenth of the way to the target (75 idle, 90 moving), plus the noise, then clamped into [60, 105]. Its distance to the target is at most 0.9 times the old distance plus the size of the noise. Load changes only on a 2% roll. |
| Gps.TemperatureApproachesTarget | backend/gps_connector.py:244-247 | Without noise, an update closes at least a tenth of the distance to the target temperature. |
| Gps.TelemetryStaysInRange | backend/gps_connector.py:236-247 | Over any run with valid draws starting at fuel ≤ 100, fuel stays in [10, 100] and temperature in [60, 105]. |
| Gps.IdleSecondsAccumulate | backend/gps_connector.py:229-233 | While a vehicle keeps idling, its idle seconds grow by exactly one interval per update. |
| MockAnswer.MockResponse | backend/llm_handler.py:101-193 | The keyword tests are tried in order on the lower-cased query: "102" (which subsumes "trk-102"), then carbon/quota, then idle/idling, then bs-vi/bs6/standard, then "zone" (which subsumes "green zone"). Each answer is chosen exactly when its keyword occurs and no earlier one does. The context argument defaults to the empty string. |
| MockAnswer.LongerKeywordsSubsumed | backend/llm_handler.py:109-109 | The "trk-102" test is subsumed by the "102" test, and the "green zone" test by the "zone" test. |
| MockAnswer.HelpIffNoKeyword | backend/llm_handler.py:186-193 | The help text is returned exactly when none of the keywords occurs in the lower-cased query. |
| MockAnswer.OnlyLoweredQueryMatters | backend/llm_handler.py:101-106 | The answer depends only on the lower-cased query, and never on the context argument. |
| MockAnswer.TruckIdWins | backend/llm_handler.py:109-121 | A query naming the truck in any letter case (its lower-cased form contains "trk-102") gets the truck analysis whatever else it mentions. |

## Left out

- The FastAPI endpoints, CORS, API-key check and websocket loop are network plumbing. Each websocket connection advancing the shared simulator is concurrency, which is not modelled.
- Supabase logging, Gemini calls, prompt assembly and `asyncio.create_task` side effects are external I/O. This includes the every-tenth-tick emission logging in `next_tick`.
- The Pathway library is not modelled: joins, windows, readers, writers, the `compute_*_udf` wrappers, the `run` loops with `time.sleep`, the RAG server and the background-thread runners.
- The file reading in the retriever's `initialize` is I/O. The chunk list is an input instead.
- `random.*` calls are explicit draw parameters. Each `datetime.now()` reading is a parameter: the simulator takes one clock reading per alerting truck. That successive readings never decrease is not modelled.
- `round(...)` on the telemetry reading's fuel, temperature and load is not modelled. Those values are reported unrounded.
- f-string texts (alert messages, context blocks' float formatting) are kept as structured values. The canned markdown answers of the mock router are kept as tags.
- The injection regexes are not interpreted: `search(pattern, text)` stands for `re.search`. The patterns themselves are listed verbatim.
- Logging is I/O and is not modelled. This covers the `logger.warning` in `sanitize_query` when an injection is blocked, and the `logger.info`/`logger.warning`/`logger.error` calls in the retriever.
- `Path(...).stem`, `str.title` and the `atan2` heading are function parameters.
- `str.lower` is modelled for ASCII letters, and `str.isspace` for ASCII and Latin-1 whitespace. Other Unicode case mappings and spaces are not modelled.
- The citation list is modelled as a set. The order `list(set)` happens to produce is not modelled.
- `backend/schema.py` declares table columns only. Its field lists shape the datatypes.
- Transforms.RowRateOmitsSpeedPenalty: stated only for moving rows (speed ≥ 1) with non-negative load. Stationary rows are covered by Transforms.IdleRowMatchesHelper instead.
- Gps.UpdateVehicle: does not state the lower bound 0 ≤ progress when the speed range admits negative speeds. In that case progress can go negative, and the model states the bound only under a non-negative minimum speed.

=== FILE: chunking.dfy ===
/** Chunking of regulation documents for the keyword fallback retriever:
    a document is cut into "## " sections; a section that fits becomes one
    chunk, a longer one is cut into paragraphs packed greedily into chunks
    of about `chunkSize` characters. */
module Chunking {
  import opened Text

  const DefaultChunkSize: int := 500
  const SectionSeparator: string := "\n## "
  const SectionPrefix: string := "## "
  const ParagraphSeparator: string := "\n\n"
  const ChunkIdInfix: string := "_chunk_"

  /** A loaded document: its file stem, its text and its path. */
  datatype Document = Document(id: string, content: string, source: string)

  datatype Chunk = Chunk(id: string, content: string, source: string)

  /** The text accumulated for a group of paragraphs: each one followed by a
      blank line, as the packing loop builds it. */
  function Render(g: seq<string>): (r: string)
    ensures |g| == 0 <==> r == []
    decreases |g|
  {
    if |g| == 0 then "" else Render(g[..|g| - 1]) + g[|g| - 1] + ParagraphSeparator
  }

  function Flatten(groups: seq<seq<string>>): seq<string>
    decreases |groups|
  {
    if |groups| == 0 then [] else Flatten(groups[..|groups| - 1]) + groups[|groups| - 1]
  }

  /** A non-empty group whose every later paragraph fitted when it was added. */
  predicate WellPacked(g: seq<string>, size: int) {
    |g| > 0 && forall j | 1 <= j < |g| :: |Render(g[..j])| + |g[j]| <= size
  }

  /** The first paragraph of `h` did not fit after group `g`. */
  predicate Overflows(g: seq<string>, h: seq<string>, size: int) {
    |h| > 0 && |Render(g)| + |h[0]| > size
  }

  /** Reference definition of greedy packing: the groups cover the paragraphs
      in order, every paragraph joined its group because it fitted, and every
      group was closed because the next paragraph did not fit. */
  predicate GreedyPacking(paras: seq<string>, size: int, groups: seq<seq<string>>) {
    && Flatten(groups) == paras
    && (forall i | 0 <= i < |groups| :: WellPacked(groups[i], size))
    && (forall i | 0 <= i < |groups| - 1 :: Overflows(groups[i], groups[i + 1], size))
  }

  lemma GreedyExtendLast(paras: seq<string>, size: int, groups: seq<seq<string>>, p: string)
    requires GreedyPacking(paras, size, groups) && |groups| > 0
    requires |Render(groups[|groups| - 1])| + |p| <= size
    ensures GreedyPacking(paras + [p], size, groups[..|groups| - 1] + [groups[|groups| - 1] + [p]])
  {
    var n := |groups|;
    var last := groups[n - 1];
    var g := last + [p];
    var gs := groups[..n - 1] + [g];
    assert gs[..n - 1] == groups[..n - 1];
    assert groups[..n - 1] + [last] == groups;
    assert Flatten(gs) == Flatten(groups[..n - 1]) + last + [p];
    assert WellPacked(g, size) by {
      forall j | 1 <= j < |g| ensures |Render(g[..j])| + |g[j]| <= size {
        if j < |last| {
          assert g[..j] == last[..j];
        } else {
          assert g[..j] == last;
        }
      }
    }
    forall i | 0 <= i < n - 1 ensures Overflows(gs[i], gs[i + 1], size) {
      assert Overflows(groups[i], groups[i + 1], size);
      if i + 1 == n - 1 {
        assert gs[i + 1][0] == last[0];
      }
    }
  }

  lemma GreedyAppendGroup(paras: seq<string>, size: int, groups: seq<seq<string>>, p: string)
    requires GreedyPacking(paras, size, groups) && |groups| > 0
    requires |Render(groups[|groups| - 1])| + |p| > size
    ensures GreedyPacking(paras + [p], size, groups + [[p]])
  {
    var gs := groups + [[p]];
    assert gs[..|groups|] == groups;
    forall i | 0 <= i < |gs| - 1 ensures Overflows(gs[i], gs[i + 1], size) {
      if i < |groups| - 1 {
        assert Overflows(groups[i], groups[i + 1], size);
      }
    }
  }

  /** The packing loop: `cur` is the group being filled, `acc` the groups
      already closed. A closed group is emitted only if it is non-empty. */
  function PackFrom(paras: seq<string>, size: int, cur: seq<string>, acc: seq<seq<string>>): seq<seq<string>>
    decreases |paras|
  {
    if |paras| == 0 then (if |cur| > 0 then acc + [cur] else acc)
    else
      var p := paras[0];
      if |Render(cur)| + |p| <= size then PackFrom(paras[1..], size, cur + [p], acc)
      else PackFrom(paras[1..], size, [p], if |cur| > 0 then acc + [cur] else acc)
  }

  /** The groups built so far. */
  function Open(cur: seq<string>, acc: seq<seq<string>>): seq<seq<string>> {
    if |cur| > 0 then acc + [cur] else acc
  }

  /** Adding a paragraph that fits to the open group keeps the packing greedy. */
  lemma GreedyStepFits(size: int, cur: seq<string>, acc: seq<seq<string>>, p: string)
    requires |cur| == 0 ==> |acc| == 0
    requires GreedyPacking(Flatten(acc) + cur, size, Open(cur, acc))
    requires |Render(cur)| + |p| <= size
    ensures GreedyPacking(Flatten(acc) + (cur + [p]), size, Open(cur + [p], acc))
  {
    var done := Flatten(acc) + cur;
    Regroup(Flatten(acc), cur, [p]);
    if |cur| == 0 {
      GreedyStart(size, p);
      assert Flatten(acc) + (cur + [p]) == [p];
    } else {
      var gs := Open(cur, acc);
      AppendedLast(acc, cur);
      GreedyExtendLast(done, size, gs, p);
    }
  }

  /** A single paragraph is a greedy packing of itself. */
  lemma GreedyStart(size: int, p: string)
    ensures GreedyPacking([p], size, [[p]])
  {
    assert [[p]][..0] == [];
    assert Flatten([[p]]) == Flatten([]) + [p];
  }

  /** Closing the open group and opening one with a paragraph that did not fit
      keeps the packing greedy. */
  lemma GreedyStepOverflows(size: int, cur: seq<string>, acc: seq<seq<string>>, p: string)
    requires |cur| == 0 ==> |acc| == 0
    requires GreedyPacking(Flatten(acc) + cur, size, Open(cur, acc))
    requires |Render(cur)| + |p| > size
    ensures var acc' := if |cur| > 0 then acc + [cur] else acc;
      GreedyPacking(Flatten(acc') + [p], size, Open([p], acc'))
  {
    var done := Flatten(acc) + cur;
    var acc' := if |cur| > 0 then acc + [cur] else acc;
    if |cur| == 0 {
      GreedyStart(size, p);
      assert Flatten(acc') + [p] == [p];
    } else {
      GreedyAppendGroup(done, size, Open(cur, acc), p);
      assert Flatten(acc') == done;
    }
  }

  lemma {:induction false} PackFromIsGreedy(paras: seq<string>, size: int, cur: seq<string>, acc: seq<seq<string>>)
    requires |cur| == 0 ==> |acc| == 0
    requires GreedyPacking(Flatten(acc) + cur, size, Open(cur, acc))
    ensures GreedyPacking(Flatten(acc) + cur + paras, size, PackFrom(paras, size, cur, acc))
    decreases |paras|
  {
    if |paras| == 0 {
      assert Flatten(acc) + cur + paras == Flatten(acc) + cur;
    } else {
      var p := paras[0];
      if |Render(cur)| + |p| <= size {
        GreedyStepFits(size, cur, acc, p);
        PackFromIsGreedy(paras[1..], size, cur + [p], acc);
        PackFromFits(paras, size, cur, acc);
      } else {
        GreedyStepOverflows(size, cur, acc, p);
        OpenFlattens(cur, acc);
        assert Flatten(Open(cur, acc)) + [p] == Flatten(acc) + cur + [p];
        PackFromIsGreedy(paras[1..], size, [p], Open(cur, acc));
        PackFromOverflows(paras, size, cur, acc);
      }
    }
  }

  /** Unfolds one step of `PackFrom` when the next paragraph fits. */
  lemma PackFromFits(paras: seq<string>, size: int, cur: seq<string>, acc: seq<seq<string>>)
    requires |paras| > 0 && |Render(cur)| + |paras[0]| <= size
    requires GreedyPacking(Flatten(acc) + (cur + [paras[0]]) + paras[1..], size, PackFrom(paras[1..], size, cur + [paras[0]], acc))
    ensures GreedyPacking(Flatten(acc) + cur + paras, size, PackFrom(paras, size, cur, acc))
  {
    ShiftFirst(Flatten(acc) + cur, paras);
    assert Flatten(acc) + (cur + [paras[0]]) == Flatten(acc) + cur + [paras[0]];
  }

  /** Unfolds one step of `PackFrom` when the next paragraph does not fit. */
  lemma PackFromOverflows(paras: seq<string>, size: int, cur: seq<string>, acc: seq<seq<string>>)
    requires |paras| > 0 && |Render(cur)| + |paras[0]| > size
    requires Flatten(Open(cur, acc)) == Flatten(acc) + cur
    requires GreedyPacking(Flatten(Open(cur, acc)) + [paras[0]] + paras[1..], size, PackFrom(paras[1..], size, [paras[0]], Open(cur, acc)))
    ensures GreedyPacking(Flatten(acc) + cur + paras, size, PackFrom(paras, size, cur, acc))
  {
    ShiftFirst(Flatten(acc) + cur, paras);
  }

  lemma OpenFlattens(cur: seq<string>, acc: seq<seq<string>>)
    ensures Flatten(Open(cur, acc)) == Flatten(acc) + cur
  {
    if |cur| > 0 {
      assert (acc + [cur])[..|acc|] == acc;
    }
  }

  /** Greedy packing of paragraphs into groups of at most `size` characters
      (a paragraph longer than that gets a group of its own). */
  function PackParagraphs(paras: seq<string>, size: int): (groups: seq<seq<string>>)
    ensures GreedyPacking(paras, size, groups)
    ensures |paras| > 0 ==> |groups| > 0
  {
    PackFromIsGreedy(paras, size, [], []);
    assert Flatten([]) + [] + paras == paras;
    PackFrom(paras, size, [], [])
  }

  /** A group of two or more paragraphs renders, once stripped, within the
      size; a single paragraph strips to itself at most. */
  lemma PackedGroupBound(g: seq<string>, size: int)
    requires WellPacked(g, size)
    ensures |Strip(Render(g))| > size ==> |g| == 1 && |g[0]| > size
    ensures |g| == 1 ==> Strip(Render(g)) == Strip(g[0])
  {
    var n := |g|;
    var front := Render(g[..n - 1]);
    assert Render(g) == (front + g[n - 1]) + ParagraphSeparator;
    StripSpaceSuffix(front + g[n - 1], ParagraphSeparator);
    if n == 1 {
      assert front == [];
      assert front + g[0] == g[0];
    } else {
      assert g[..n - 1][..n - 1] == g[..n - 1];
      assert |front| + |g[n - 1]| <= size;
    }
  }

  /** The groups that become chunks: all but the last, and the last too
      unless it is only whitespace. */
  function KeptGroups(groups: seq<seq<string>>): seq<seq<string>>
    requires |groups| > 0
  {
    var last := groups[|groups| - 1];
    if AllSpace(Render(last)) then groups[..|groups| - 1] else groups
  }

  function StripAll(groups: seq<seq<string>>): (r: seq<string>)
    ensures |r| == |groups|
    ensures forall k | 0 <= k < |groups| :: r[k] == Strip(Render(groups[k]))
  {
    seq(|groups|, k requires 0 <= k < |groups| => Strip(Render(groups[k])))
  }

  /** The paragraphs of a section that is too long to be one chunk. */
  function Paragraphs(section: string): (r: seq<string>)
    ensures |r| > 0
  {
    Split(section, ParagraphSeparator)
  }

  /** Chunk texts of one section. */
  function SectionContents(section: string, size: int): (r: seq<string>)
    ensures |section| <= size ==> r == [Strip(section)]
    ensures |section| > size ==> exists groups ::
      && GreedyPacking(Paragraphs(section), size, groups) && |groups| > 0
      && r == StripAll(KeptGroups(groups))
    ensures forall k | 0 <= k < |r| :: |r[k]| > size ==>
      exists j | 0 <= j < |Paragraphs(section)| :: |Paragraphs(section)[j]| > size && r[k] == Strip(Paragraphs(section)[j])
  {
    if |section| <= size then [Strip(section)]
    else PackedContents(Paragraphs(section), size)
  }

  /** Chunk texts of a section cut into paragraphs: the stripped groups of
      the greedy packing, without a trailing whitespace-only group. */
  function PackedContents(paras: seq<string>, size: int): (r: seq<string>)
    requires |paras| > 0
    ensures exists groups ::
      && GreedyPacking(paras, size, groups) && |groups| > 0
      && r == StripAll(KeptGroups(groups))
    ensures forall k | 0 <= k < |r| :: |r[k]| > size ==>
      exists j | 0 <= j < |paras| :: |paras[j]| > size && r[k] == Strip(paras[j])
  {
    var groups := PackParagraphs(paras, size);
    var kept := KeptGroups(groups);
    var r := StripAll(kept);
    assert forall k | 0 <= k < |kept| :: kept[k] == groups[k];
    SectionChunksBounded(paras, size, groups, r);
    assert GreedyPacking(paras, size, groups) && |groups| > 0 && r == StripAll(KeptGroups(groups));
    r
  }

  lemma SectionChunksBounded(paras: seq<string>, size: int, groups: seq<seq<string>>, r: seq<string>)
    requires GreedyPacking(paras, size, groups)
    requires |r| <= |groups|
    requires forall k | 0 <= k < |r| :: r[k] == Strip(Render(groups[k]))
    ensures forall k | 0 <= k < |r| :: |r[k]| > size ==>
      exists j | 0 <= j < |paras| :: |paras[j]| > size && r[k] == Strip(paras[j])
  {
    forall k | 0 <= k < |r| && |r[k]| > size
      ensures exists j | 0 <= j < |paras| :: |paras[j]| > size && r[k] == Strip(paras[j])
    {
      PackedGroupBound(groups[k], size);
      FlattenMember(groups, k);
      var j :| 0 <= j < |paras| && paras[j] == groups[k][0];
    }
  }

  /** Every paragraph of every group is one of the packed paragraphs. */
  lemma {:induction false} FlattenMember(groups: seq<seq<string>>, k: int)
    requires 0 <= k < |groups| && |groups[k]| > 0
    ensures exists j | 0 <= j < |Flatten(groups)| :: Flatten(groups)[j] == groups[k][0]
    decreases |groups|
  {
    var n := |groups|;
    var front := Flatten(groups[..n - 1]);
    if k == n - 1 {
      assert Flatten(groups)[|front|] == groups[k][0];
    } else {
      assert groups[..n - 1][k] == groups[k];
      FlattenMember(groups[..n - 1], k);
      var j :| 0 <= j < |front| && front[j] == groups[k][0];
      assert Flatten(groups)[j] == front[j];
    }
  }

  /** Only trailing whitespace-only paragraphs are dropped: the chunked
      paragraphs are a prefix of the section's, and everything after that
      prefix is whitespace. */
  lemma KeptGroupsLoseOnlySpace(paras: seq<string>, size: int)
    requires |paras| > 0
    ensures var kept := KeptGroups(PackParagraphs(paras, size));
      && Flatten(kept) == paras[..|Flatten(kept)|]
      && forall j | |Flatten(kept)| <= j < |paras| :: AllSpace(paras[j])
  {
    var groups := PackParagraphs(paras, size);
    var n := |groups|;
    var last := groups[n - 1];
    assert groups[..n - 1] + [last] == groups;
    if AllSpace(Render(last)) {
      var front := Flatten(groups[..n - 1]);
      assert paras == front + last;
      forall j | |front| <= j < |paras| ensures AllSpace(paras[j]) {
        RenderAllSpace(last, j - |front|);
      }
    }
  }

  /** A whitespace-only rendering has whitespace-only paragraphs. */
  lemma {:induction false} RenderAllSpace(g: seq<string>, j: int)
    requires AllSpace(Render(g)) && 0 <= j < |g|
    ensures AllSpace(g[j])
    decreases |g|
  {
    var n := |g|;
    var front := Render(g[..n - 1]);
    assert Render(g) == front + g[n - 1] + ParagraphSeparator;
    if j == n - 1 {
      forall i | 0 <= i < |g[j]| ensures IsSpace(g[j][i]) {
        assert g[j][i] == Render(g)[|front| + i];
      }
    } else {
      forall i | 0 <= i < |front| ensures IsSpace(front[i]) {
        assert front[i] == Render(g)[i];
      }
      assert g[..n - 1][j] == g[j];
      RenderAllSpace(g[..n - 1], j);
    }
  }

  /** The document's sections: the text split at "\n## ", with "## " put back
      on every section after the first. */
  function Sections(content: string): (r: seq<string>)
    ensures |r| == |Split(content, SectionSeparator)| && |r| > 0
    ensures r[0] == Split(content, SectionSeparator)[0]
    ensures forall i | 1 <= i < |r| :: r[i] == SectionPrefix + Split(content, SectionSeparator)[i]
  {
    var parts := Split(content, SectionSeparator);
    seq(|parts|, i requires 0 <= i < |parts| => if i > 0 then SectionPrefix + parts[i] else parts[i])
  }

  lemma {:induction false} JoinRestoredSections(parts: seq<string>, sections: seq<string>)
    requires |parts| == |sections| > 0 && sections[0] == parts[0]
    requires forall i | 1 <= i < |parts| :: sections[i] == SectionPrefix + parts[i]
    ensures Join(sections, "\n") == Join(parts, SectionSeparator)
    decreases |parts|
  {
    if |parts| > 1 {
      var parts' := [SectionPrefix + parts[1]] + parts[2..];
      var ps := sections[1..];
      JoinRestoredSections(parts', ps);
      assert parts'[1..] == parts[2..] && parts[1..][1..] == parts[2..];
      assert Join(parts', SectionSeparator) == SectionPrefix + Join(parts[1..], SectionSeparator);
      calc {
        Join(sections, "\n");
        parts[0] + "\n" + Join(ps, "\n");
        parts[0] + "\n" + (SectionPrefix + Join(parts[1..], SectionSeparator));
        parts[0] + SectionSeparator + Join(parts[1..], SectionSeparator);
      }
    }
  }

  /** No text is lost or invented by sectioning: the sections joined with
      newlines give back the document. */
  lemma SectionsRestoreDocument(content: string)
    ensures Join(Sections(content), "\n") == content
  {
    JoinRestoredSections(Split(content, SectionSeparator), Sections(content));
    SplitJoin(content, SectionSeparator);
  }

  /** The pieces a document is cut into hold no cut mark: no section piece
      contains "\n## " and no paragraph contains a blank line. */
  lemma PiecesHoldNoSeparator(content: string, section: string)
    ensures var parts := Split(content, SectionSeparator);
      forall k | 0 <= k < |parts| :: !Contains(parts[k], SectionSeparator)
    ensures forall k | 0 <= k < |Paragraphs(section)| :: !Contains(Paragraphs(section)[k], ParagraphSeparator)
  {
    SplitPiecesFree(content, SectionSeparator);
    SplitPiecesFree(section, ParagraphSeparator);
  }

  function ChunkId(docId: string, k: nat): string {
    docId + ChunkIdInfix + NatToString(k)
  }

  /** Chunk texts of the first `n` sections, in order. */
  function ContentsUpTo(sections: seq<string>, size: int, n: nat): seq<string>
    requires n <= |sections|
    decreases n
  {
    if n == 0 then [] else ContentsUpTo(sections, size, n - 1) + SectionContents(sections[n - 1], size)
  }

  lemma ContentsStep(sections: seq<string>, size: int, i: nat)
    requires i < |sections|
    ensures ContentsUpTo(sections, size, i + 1) == ContentsUpTo(sections, size, i) + SectionContents(sections[i], size)
  {
  }

  /** `chunks` are `contents`, numbered from 0 under the document's id and
      carrying its source. */
  predicate Numbered(doc: Document, contents: seq<string>, chunks: seq<Chunk>) {
    && |chunks| == |contents|
    && forall k | 0 <= k < |chunks| :: chunks[k] == Chunk(ChunkId(doc.id, k), contents[k], doc.source)
  }

  /** Appends one section's chunk texts, numbering them on from the chunks
      already made. */
  method AppendChunks(doc: Document, chunks: seq<Chunk>, ghost contents: seq<string>, texts: seq<string>)
    returns (r: seq<Chunk>)
    requires Numbered(doc, contents, chunks)
    ensures Numbered(doc, contents + texts, r)
  {
    r := chunks;
    var j := 0;
    while j < |texts|
      invariant 0 <= j <= |texts|
      invariant Numbered(doc, contents + texts[..j], r)
    {
      assert (contents + texts[..j + 1]) == (contents + texts[..j]) + [texts[j]];
      r := r + [Chunk(ChunkId(doc.id, |r|), texts[j], doc.source)];
      j := j + 1;
    }
    assert texts[..j] == texts;
  }

  /** Chunks the sections in order, numbering on from 0. */
  method ChunkSections(doc: Document, sections: seq<string>, size: int) returns (chunks: seq<Chunk>)
    ensures Numbered(doc, ContentsUpTo(sections, size, |sections|), chunks)
  {
    chunks := [];
    var i := 0;
    while i < |sections|
      invariant 0 <= i <= |sections|
      invariant Numbered(doc, ContentsUpTo(sections, size, i), chunks)
    {
      ghost var before := ContentsUpTo(sections, size, i);
      var texts := SectionContents(sections[i], size);
      chunks := AppendChunks(doc, chunks, before, texts);
      ContentsStep(sections, size, i);
      i := i + 1;
    }
  }

  /** Splits a document into chunks numbered in order of creation; every chunk
      carries the document's source. */
  method ChunkDocument(doc: Document, size: int := DefaultChunkSize) returns (chunks: seq<Chunk>)
    ensures var sections := Sections(doc.content);
      Numbered(doc, ContentsUpTo(sections, size, |sections|), chunks)
  {
    chunks := ChunkSections(doc, Sections(doc.content), size);
  }
}

=== FILE: fleet.dfy ===
/** The fallback fleet simulator used when the streaming engine is absent:
    five trucks with a status, a CO2 level, a speed and an idle counter,
    advanced one tick at a time. Every random draw of a tick is passed in
    as a `TickDraw`; the clock reading each alert is stamped with is passed
    in, one per truck, as `stamps`. */
module Fleet {
  import opened Wrappers
  import Schema
  import opened Numeric

  /** The `status` strings "MOVING", "IDLE", "WARNING" and "CRITICAL". */
  datatype Status = Moving | Idle | Warning | Critical

  datatype Truck = Truck(
    id: string, lat: real, lng: real, status: Status,
    co2: int, speed: real, idleSeconds: real)

  datatype Simulator = Simulator(routes: seq<Truck>, tickCount: int)

  const VehicleIds: seq<string> := ["TRK-101", "TRK-102", "TRK-103", "TRK-104", "TRK-105"]

  const BasePositions: seq<(real, real)> := [
    (12.8399, 77.6770),  // Electronic City
    (12.9698, 77.7500),  // Whitefield
    (13.1986, 77.7066),  // Airport
    (13.0285, 77.5192),  // Peenya
    (12.9352, 77.6245)   // Koramangala
  ]

  const InitialStatuses: seq<Status> := [Moving, Moving, Moving, Idle, Moving]
  const InitialCo2: seq<int> := [450, 520, 480, 850, 410]

  const Co2Floor: int := 350
  const Co2Ceiling: int := 1500
  const CriticalIdleCo2: int := 800
  const HighEmissionCo2: int := 1000
  const SpikeRollThreshold: real := 0.97
  const ExtendedIdleSeconds: real := 120.0
  const IdleTickSeconds: real := 0.5
  const MinMovingSpeed: real := 20.0
  const MaxMovingSpeed: real := 70.0
  const IdleStatusSpeed: real := 5.0

  /** The random draws one truck consumes in one tick: position jitter, speed
      jitter, the spike roll, the spike increase and the decay decrease. */
  datatype TickDraw = TickDraw(
    dLat: real, dLng: real, dSpeed: real,
    spikeRoll: real, spikeAmount: int, decayAmount: int)

  /** The ranges `random.uniform`, `random.random` and `random.randint` draw from. */
  predicate ValidDraw(d: TickDraw) {
    && -0.002 <= d.dLat <= 0.002
    && -0.002 <= d.dLng <= 0.002
    && -5.0 <= d.dSpeed <= 5.0
    && 0.0 <= d.spikeRoll < 1.0
    && 50 <= d.spikeAmount <= 150
    && 5 <= d.decayAmount <= 15
  }

  predicate AllValid(draws: seq<TickDraw>) {
    forall i | 0 <= i < |draws| :: ValidDraw(draws[i])
  }

  predicate InBand(co2: int) {
    Co2Floor <= co2 <= Co2Ceiling
  }

  predicate FleetInBand(trucks: seq<Truck>) {
    forall i | 0 <= i < |trucks| :: InBand(trucks[i].co2)
  }

  /** Initial fleet: one truck per vehicle id, at its base position, with the
      configured status and CO2 level; moving trucks take their drawn speed. */
  function GenerateRoutes(speeds: seq<real>): (routes: seq<Truck>)
    requires |speeds| == |VehicleIds|
    ensures |routes| == |VehicleIds|
    ensures forall i | 0 <= i < |routes| ::
      && routes[i].id == VehicleIds[i]
      && routes[i].idleSeconds == 0.0
      && routes[i].status == InitialStatuses[i]
      && routes[i].co2 == InitialCo2[i]
      && routes[i].speed == (if InitialStatuses[i] == Moving then speeds[i] else 0.0)
      && (routes[i].lat, routes[i].lng) == BasePositions[i % |BasePositions|]
    ensures (forall i | 0 <= i < |speeds| :: 30.0 <= speeds[i] <= 60.0) ==>
      forall i | 0 <= i < |routes| :: routes[i].speed == 0.0 <==> routes[i].status != Moving
    ensures FleetInBand(routes)
  {
    seq(|VehicleIds|, i requires 0 <= i < |VehicleIds| =>
      var pos := BasePositions[i % |BasePositions|];
      Truck(VehicleIds[i], pos.0, pos.1, InitialStatuses[i], InitialCo2[i],
            if InitialStatuses[i] == Moving then speeds[i] else 0.0, 0.0))
  }

  /** A new simulator: the initial fleet, at tick 0. */
  function NewSimulator(speeds: seq<real>): (sim: Simulator)
    requires |speeds| == |VehicleIds|
    ensures sim.tickCount == 0
    ensures |sim.routes| == |VehicleIds|
    ensures forall i | 0 <= i < |sim.routes| :: sim.routes[i].id == VehicleIds[i] && sim.routes[i].idleSeconds == 0.0
    ensures FleetInBand(sim.routes)
  {
    Simulator(GenerateRoutes(speeds), 0)
  }

  /** The alert text, kept as the values it is formatted from. */
  datatype FleetMessage = SpikeDetected(co2: int) | ExtendedIdle(seconds: int) | CriticalCo2(co2: int)

  /** What a truck's tick reports when it raises an alert. */
  datatype AlertInfo = AlertInfo(alertType: Schema.AlertType, severity: Status, message: FleetMessage)

  /** One entry of a tick's alert list. */
  datatype FleetAlert = FleetAlert(
    vehicleId: string, alertType: Schema.AlertType, severity: Status,
    message: FleetMessage, lat: real, lng: real, timestamp: string)

  /** Movement half of a tick: moving trucks jitter and keep a clamped speed,
      every other truck stays put and accumulates idle time. */
  function Move(t: Truck, d: TickDraw): Truck {
    if t.status == Moving then
      t.(lat := t.lat + d.dLat, lng := t.lng + d.dLng,
         speed := Clamp(MinMovingSpeed, MaxMovingSpeed, t.speed + d.dSpeed),
         idleSeconds := 0.0)
    else
      t.(idleSeconds := t.idleSeconds + IdleTickSeconds)
  }

  /** One truck's tick: movement, then the first of spike, extended idle,
      high emission and gradual improvement that applies. */
  function StepTruck(t: Truck, d: TickDraw): (r: (Truck, Option<AlertInfo>))
    ensures r.0.id == t.id
    ensures t.status == Moving ==>
      && r.0.speed == Clamp(MinMovingSpeed, MaxMovingSpeed, t.speed + d.dSpeed)
      && MinMovingSpeed <= r.0.speed <= MaxMovingSpeed
      && r.0.idleSeconds == 0.0
      && r.0.lat == t.lat + d.dLat && r.0.lng == t.lng + d.dLng
    ensures t.status != Moving ==>
      && r.0.lat == t.lat && r.0.lng == t.lng && r.0.speed == t.speed
      && r.0.idleSeconds == t.idleSeconds + IdleTickSeconds
    ensures r.1.Some? <==> r.0.status == Warning || r.0.status == Critical
    ensures r.1.Some? ==> r.1.value.severity == r.0.status
    ensures ValidDraw(d) && InBand(t.co2) ==> InBand(r.0.co2)
    ensures t.status != Moving && t.idleSeconds > ExtendedIdleSeconds ==>
      r.0.status != Moving && r.0.idleSeconds > ExtendedIdleSeconds && r.1.Some?
    // which rule fires, in priority order: spike, extended idle, high emission, decay
    ensures d.spikeRoll > SpikeRollThreshold ==>
      && r.0.status == Warning
      && r.0.co2 == MinInt(Co2Ceiling, t.co2 + d.spikeAmount)
      && r.1 == Some(AlertInfo(Schema.EmissionSpike, Warning, SpikeDetected(r.0.co2)))
    ensures d.spikeRoll <= SpikeRollThreshold && r.0.idleSeconds > ExtendedIdleSeconds ==>
      && r.0.co2 == t.co2
      && (r.0.status == Critical <==> t.co2 > CriticalIdleCo2)
      && (r.0.status == Warning <==> t.co2 <= CriticalIdleCo2)
      && r.1 == Some(AlertInfo(Schema.HighIdle, r.0.status, ExtendedIdle(Trunc(r.0.idleSeconds))))
    ensures d.spikeRoll <= SpikeRollThreshold && r.0.idleSeconds <= ExtendedIdleSeconds && t.co2 > HighEmissionCo2 ==>
      && r.0.co2 == t.co2
      && r.0.status == Critical
      && r.1 == Some(AlertInfo(Schema.HighEmission, Critical, CriticalCo2(t.co2)))
    ensures d.spikeRoll <= SpikeRollThreshold && r.0.idleSeconds <= ExtendedIdleSeconds && t.co2 <= HighEmissionCo2 ==>
      && r.1.None?
      && r.0.co2 == MaxInt(Co2Floor, t.co2 - d.decayAmount)
      && (r.0.status == Idle <==> r.0.speed < IdleStatusSpeed)
      && (r.0.status == Moving <==> r.0.speed >= IdleStatusSpeed)
  {
    var m := Move(t, d);
    if d.spikeRoll > SpikeRollThreshold then
      var co2 := if m.co2 + d.spikeAmount <= Co2Ceiling then m.co2 + d.spikeAmount else Co2Ceiling;
      (m.(co2 := co2, status := Warning),
       Some(AlertInfo(Schema.EmissionSpike, Warning, SpikeDetected(co2))))
    else if m.idleSeconds > ExtendedIdleSeconds then
      var status := if m.co2 > CriticalIdleCo2 then Critical else Warning;
      (m.(status := status),
       Some(AlertInfo(Schema.HighIdle, status, ExtendedIdle(Trunc(m.idleSeconds)))))
    else if m.co2 > HighEmissionCo2 then
      (m.(status := Critical), Some(AlertInfo(Schema.HighEmission, Critical, CriticalCo2(m.co2))))
    else
      var co2 := if m.co2 - d.decayAmount >= Co2Floor then m.co2 - d.decayAmount else Co2Floor;
      (m.(co2 := co2, status := if m.speed < IdleStatusSpeed then Idle else Moving), None)
  }

  /** The alert entry for a truck that reported `info` after its tick. */
  function MakeAlert(t: Truck, info: AlertInfo, now: string): FleetAlert {
    FleetAlert(t.id, info.alertType, info.severity, info.message, t.lat, t.lng, now)
  }

  predicate Alerting(routes: seq<Truck>, draws: seq<TickDraw>, i: int)
    requires |draws| == |routes|
  {
    0 <= i < |routes| && StepTruck(routes[i], draws[i]).1.Some?
  }

  /** The positions, in route order, of the first `n` trucks that raise an alert. */
  function AlertingIndices(routes: seq<Truck>, draws: seq<TickDraw>, n: nat): (idx: seq<int>)
    requires |draws| == |routes| && n <= |routes|
    ensures forall k | 0 <= k < |idx| :: 0 <= idx[k] < n && Alerting(routes, draws, idx[k])
    ensures forall j, k | 0 <= j < k < |idx| :: idx[j] < idx[k]
    ensures forall i | 0 <= i < n && Alerting(routes, draws, i) :: i in idx
    decreases n
  {
    if n == 0 then []
    else
      AlertingIndices(routes, draws, n - 1)
      + (if Alerting(routes, draws, n - 1) then [n - 1] else [])
  }

  /** The alert of the truck at position `i`, which is known to raise one. */
  function AlertAt(routes: seq<Truck>, draws: seq<TickDraw>, stamps: seq<string>, i: int): FleetAlert
    requires |draws| == |routes| == |stamps| && Alerting(routes, draws, i)
  {
    var r := StepTruck(routes[i], draws[i]);
    MakeAlert(r.0, r.1.value, stamps[i])
  }

  /** `alerts` are the alerts of the first `n` trucks that raise one, in route order. */
  predicate AlertsInRouteOrder(routes: seq<Truck>, draws: seq<TickDraw>, stamps: seq<string>, n: nat, alerts: seq<FleetAlert>)
    requires |draws| == |routes| == |stamps| && n <= |routes|
  {
    var idx := AlertingIndices(routes, draws, n);
    |alerts| == |idx| && forall k | 0 <= k < |alerts| :: alerts[k] == AlertAt(routes, draws, stamps, idx[k])
  }

  /** Advances every truck by one tick. Returns the new simulator, one update
      per truck in route order, and one alert per truck that raised one, in
      route order. The clock is read afresh for every alert: `stamps[i]` is
      the reading taken if truck `i` raises one. */
  method NextTick(sim: Simulator, draws: seq<TickDraw>, stamps: seq<string>)
    returns (next: Simulator, updates: seq<Truck>, alerts: seq<FleetAlert>)
    requires |draws| == |sim.routes| == |stamps|
    ensures next.tickCount == sim.tickCount + 1
    ensures next.routes == updates && |updates| == |sim.routes|
    ensures forall i | 0 <= i < |updates| :: updates[i] == StepTruck(sim.routes[i], draws[i]).0
    ensures AlertsInRouteOrder(sim.routes, draws, stamps, |sim.routes|, alerts)
    ensures AllValid(draws) && FleetInBand(sim.routes) ==> FleetInBand(updates)
  {
    updates, alerts := StepAll(sim.routes, draws, stamps);
    next := Simulator(updates, sim.tickCount + 1);
    TickKeepsBand(sim.routes, draws, updates);
  }

  /** The loop of `NextTick`: steps every truck in route order. */
  method StepAll(routes: seq<Truck>, draws: seq<TickDraw>, stamps: seq<string>)
    returns (updates: seq<Truck>, alerts: seq<FleetAlert>)
    requires |draws| == |routes| == |stamps|
    ensures UpdatedPrefix(routes, draws, |routes|, updates)
    ensures AlertsInRouteOrder(routes, draws, stamps, |routes|, alerts)
  {
    updates := [];
    alerts := [];
    var i := 0;
    while i < |routes|
      invariant 0 <= i <= |routes|
      invariant UpdatedPrefix(routes, draws, i, updates)
      invariant AlertsInRouteOrder(routes, draws, stamps, i, alerts)
    {
      updates, alerts := StepOne(routes, draws, stamps, i, updates, alerts);
      i := i + 1;
    }
  }

  /** `updates` are the new states of the first `i` trucks. */
  predicate UpdatedPrefix(routes: seq<Truck>, draws: seq<TickDraw>, i: nat, updates: seq<Truck>)
    requires |draws| == |routes| && i <= |routes|
  {
    |updates| == i && forall j | 0 <= j < i :: updates[j] == StepTruck(routes[j], draws[j]).0
  }

  /** The loop body of `NextTick`: steps truck `i`, appending its new state and
      its alert, if any. */
  method StepOne(routes: seq<Truck>, draws: seq<TickDraw>, stamps: seq<string>, i: nat,
                 updates: seq<Truck>, alerts: seq<FleetAlert>)
    returns (updates': seq<Truck>, alerts': seq<FleetAlert>)
    requires |draws| == |routes| == |stamps| && i < |routes|
    requires UpdatedPrefix(routes, draws, i, updates)
    requires AlertsInRouteOrder(routes, draws, stamps, i, alerts)
    ensures UpdatedPrefix(routes, draws, i + 1, updates')
    ensures AlertsInRouteOrder(routes, draws, stamps, i + 1, alerts')
  {
    var r := StepTruck(routes[i], draws[i]);
    AlertsStep(routes, draws, stamps, i, alerts);
    UpdatesStep(routes, draws, i, updates, r.0);
    updates' := updates + [r.0];
    alerts' := alerts;
    if r.1.Some? {
      alerts' := alerts + [MakeAlert(r.0, r.1.value, stamps[i])];
    }
  }

  /** One more truck examined: its alert, if any, joins the end of the list. */
  lemma AlertsStep(routes: seq<Truck>, draws: seq<TickDraw>, stamps: seq<string>, i: nat, alerts: seq<FleetAlert>)
    requires |draws| == |routes| == |stamps| && i < |routes|
    requires AlertsInRouteOrder(routes, draws, stamps, i, alerts)
    ensures var r := StepTruck(routes[i], draws[i]);
      AlertsInRouteOrder(routes, draws, stamps, i + 1,
        if r.1.Some? then alerts + [MakeAlert(r.0, r.1.value, stamps[i])] else alerts)
  {
    var r := StepTruck(routes[i], draws[i]);
    var before := AlertingIndices(routes, draws, i);
    assert AlertingIndices(routes, draws, i + 1) == before + (if r.1.Some? then [i] else []);
    if r.1.Some? {
      var alerts' := alerts + [MakeAlert(r.0, r.1.value, stamps[i])];
      assert alerts'[|alerts|] == AlertAt(routes, draws, stamps, i);
      assert forall k | 0 <= k < |alerts| :: alerts'[k] == alerts[k];
    }
  }

  lemma UpdatesStep(routes: seq<Truck>, draws: seq<TickDraw>, i: nat, updates: seq<Truck>, t: Truck)
    requires |draws| == |routes| && i < |routes|
    requires UpdatedPrefix(routes, draws, i, updates)
    requires t == StepTruck(routes[i], draws[i]).0
    ensures UpdatedPrefix(routes, draws, i + 1, updates + [t])
  {
    assert forall j | 0 <= j < i :: (updates + [t])[j] == updates[j];
  }

  lemma TickKeepsBand(routes: seq<Truck>, draws: seq<TickDraw>, updates: seq<Truck>)
    requires |draws| == |routes| == |updates|
    requires forall i | 0 <= i < |updates| :: updates[i] == StepTruck(routes[i], draws[i]).0
    ensures AllValid(draws) && FleetInBand(routes) ==> FleetInBand(updates)
  {
    if AllValid(draws) && FleetInBand(routes) {
      forall i | 0 <= i < |updates| ensures InBand(updates[i].co2) {
        assert ValidDraw(draws[i]) && InBand(routes[i].co2);
      }
    }
  }

  /** The trucks' states and reports over consecutive ticks with draws `ds`. */
  function TruckRun(t: Truck, ds: seq<TickDraw>): (run: seq<(Truck, Option<AlertInfo>)>)
    ensures |run| == |ds|
    ensures |ds| > 0 ==> run[0] == StepTruck(t, ds[0])
    ensures forall k | 0 < k < |ds| :: run[k] == StepTruck(run[k - 1].0, ds[k])
    decreases |ds|
  {
    if |ds| == 0 then []
    else
      var r := StepTruck(t, ds[0]);
      var rest := TruckRun(r.0, ds[1..]);
      [r] + rest
  }

  /** There is no de-duplication: a stopped truck idle for over two minutes
      raises an alert on every later tick, keeps accumulating idle time and
      never moves again. */
  lemma {:induction false} ExtendedIdleIsAbsorbing(t: Truck, ds: seq<TickDraw>)
    requires t.status != Moving && t.idleSeconds > ExtendedIdleSeconds
    ensures forall k | 0 <= k < |ds| ::
      && TruckRun(t, ds)[k].0.status != Moving
      && TruckRun(t, ds)[k].1.Some?
      && TruckRun(t, ds)[k].0.idleSeconds == t.idleSeconds + IdleTickSeconds * (k + 1) as real
    decreases |ds|
  {
    if |ds| > 0 {
      var r := StepTruck(t, ds[0]);
      ExtendedIdleIsAbsorbing(r.0, ds[1..]);
      var run := TruckRun(t, ds);
      assert forall k | 1 <= k < |ds| :: run[k] == TruckRun(r.0, ds[1..])[k - 1];
    }
  }

  /** With well-formed draws a truck's CO2 never leaves [350, 1500]: spikes are
      capped at the ceiling and decay is floored at 350. */
  lemma {:induction false} Co2StaysInBand(t: Truck, ds: seq<TickDraw>)
    requires InBand(t.co2)
    requires forall k | 0 <= k < |ds| :: ValidDraw(ds[k])
    ensures forall k | 0 <= k < |ds| :: InBand(TruckRun(t, ds)[k].0.co2)
    decreases |ds|
  {
    if |ds| > 0 {
      var r := StepTruck(t, ds[0]);
      assert ValidDraw(ds[0]);
      assert forall k | 0 <= k < |ds[1..]| :: ValidDraw(ds[1..][k]) by {
        forall k | 0 <= k < |ds[1..]| ensures ValidDraw(ds[1..][k]) {
          assert ds[1..][k] == ds[k + 1];
        }
      }
      Co2StaysInBand(r.0, ds[1..]);
      var run := TruckRun(t, ds);
      assert forall k | 1 <= k < |ds| :: run[k] == TruckRun(r.0, ds[1..])[k - 1];
    }
  }
}

=== FILE: gps.dfy ===
/** The simulated GPS and telemetry streams: the fixed delivery routes,
    linear interpolation between waypoints, and the per-tick update of a
    vehicle's route position and of its engine telemetry. Every random draw
    is a parameter; the heading computation (an `atan2` in degrees) is the
    function parameter `bearing`. */
module Gps {
  import opened Numeric

  datatype Waypoint = Waypoint(lat: real, lng: real)

  datatype Route = Route(key: string, name: string, waypoints: seq<Waypoint>)

  const RouteA: Route := Route("route_a", "Electronic City Loop", [
    Waypoint(12.8399, 77.6770), Waypoint(12.8506, 77.6593), Waypoint(12.8731, 77.6197),
    Waypoint(12.9062, 77.5857), Waypoint(12.9352, 77.6245), Waypoint(12.8399, 77.6770)])

  const RouteB: Route := Route("route_b", "Whitefield Express", [
    Waypoint(12.9698, 77.7500), Waypoint(12.9591, 77.7010), Waypoint(12.9352, 77.6245),
    Waypoint(12.9279, 77.5806), Waypoint(12.9719, 77.5942), Waypoint(12.9698, 77.7500)])

  const RouteC: Route := Route("route_c", "Airport Cargo", [
    Waypoint(13.1986, 77.7066), Waypoint(13.0358, 77.5970), Waypoint(12.9719, 77.5942),
    Waypoint(12.9352, 77.6245), Waypoint(12.9591, 77.7010), Waypoint(13.1986, 77.7066)])

  const RouteD: Route := Route("route_d", "Peenya Industrial", [
    Waypoint(13.0285, 77.5192), Waypoint(12.9914, 77.5520), Waypoint(12.9716, 77.5946),
    Waypoint(12.9279, 77.5806), Waypoint(12.9062, 77.5857), Waypoint(13.0285, 77.5192)])

  /** The routes in the order their keys are listed. */
  const Routes: seq<Route> := [RouteA, RouteB, RouteC, RouteD]

  /** A route drives in a loop: it has at least two waypoints and ends where it starts. */
  predicate Closed(r: Route) {
    |r.waypoints| >= 2 && r.waypoints[|r.waypoints| - 1] == r.waypoints[0]
  }

  /** The route a vehicle is assigned by its position in the vehicle list. */
  function RouteFor(i: nat): (r: Route)
    ensures r in Routes && Closed(r)
    ensures |r.waypoints| == 6
    ensures r.key == ["route_a", "route_b", "route_c", "route_d"][i % 4]
  {
    Routes[i % 4]
  }

  predicate Between(a: real, b: real, x: real) {
    (a <= x <= b) || (b <= x <= a)
  }

  function Interpolate(wp1: Waypoint, wp2: Waypoint, t: real): (p: Waypoint)
    ensures t == 0.0 ==> p == wp1
    ensures t == 1.0 ==> p == wp2
    ensures 0.0 <= t <= 1.0 ==> Between(wp1.lat, wp2.lat, p.lat) && Between(wp1.lng, wp2.lng, p.lng)
  {
    InterpolateBetween(wp1.lat, wp2.lat, t);
    InterpolateBetween(wp1.lng, wp2.lng, t);
    Waypoint(wp1.lat + (wp2.lat - wp1.lat) * t, wp1.lng + (wp2.lng - wp1.lng) * t)
  }

  lemma InterpolateBetween(a: real, b: real, t: real)
    ensures 0.0 <= t <= 1.0 ==> Between(a, b, a + (b - a) * t)
  {
    if 0.0 <= t <= 1.0 {
      if a <= b {
        InterpolateUp(a, b, t);
      } else {
        InterpolateDown(a, b, t);
      }
    }
  }

  lemma InterpolateUp(a: real, b: real, t: real)
    requires a <= b && 0.0 <= t <= 1.0
    ensures a <= a + (b - a) * t <= b
  {
    var x := b - a;
    assert x * t >= 0.0;
    assert x - x * t == x * (1.0 - t);
    assert x * (1.0 - t) >= 0.0;
  }

  lemma InterpolateDown(a: real, b: real, t: real)
    requires b < a && 0.0 <= t <= 1.0
    ensures b <= a + (b - a) * t <= a
  {
    var x := a - b;
    assert x * t >= 0.0;
    assert (b - a) * t == -(x * t);
    assert x - x * t == x * (1.0 - t);
    assert x * (1.0 - t) >= 0.0;
  }

  const IdleStartChance: real := 0.05
  const MinIdleDuration: int := 30
  const MaxIdleDuration: int := 180
  const ProgressPerSpeed: real := 0.02
  const ReferenceSpeed: real := 50.0
  const MaxSpeedJitter: real := 5.0

  datatype VehicleState = VehicleState(
    routeKey: string,
    waypoints: seq<Waypoint>,
    wpIdx: int,
    progress: real,
    speed: real,
    heading: real,
    isIdle: bool,
    idleTimer: real)

  /** The random draws of one update: the idle-start roll, the idle length
      and the speed jitter. */
  datatype GpsDraw = GpsDraw(idleRoll: real, idleDuration: int, speedDelta: real)

  predicate ValidGpsDraw(d: GpsDraw) {
    0.0 <= d.idleRoll < 1.0
    && MinIdleDuration <= d.idleDuration <= MaxIdleDuration
    && -MaxSpeedJitter <= d.speedDelta <= MaxSpeedJitter
  }

  datatype GpsReading = GpsReading(position: Waypoint, speed: real, heading: real)

  /** A vehicle is between waypoint `wpIdx` and the next one. */
  predicate OnRoute(st: VehicleState) {
    |st.waypoints| > 0 && 0 <= st.wpIdx < |st.waypoints| && 0.0 <= st.progress < 1.0
  }

  /** The initial state of the `i`-th vehicle: start of its route, not idle. */
  function InitVehicle(i: nat, speed: real): (st: VehicleState)
    ensures OnRoute(st) && st.wpIdx == 0 && st.progress == 0.0 && !st.isIdle
    ensures st.waypoints == RouteFor(i).waypoints && st.routeKey == RouteFor(i).key
    ensures st.speed == speed && st.heading == 0.0 && st.idleTimer == 0.0
  {
    var route := RouteFor(i);
    VehicleState(route.key, route.waypoints, 0, 0.0, speed, 0.0, false, 0.0)
  }

  /** Whether the vehicle stands still this tick: already idling, or starting to. */
  predicate IdlesThisTick(st: VehicleState, d: GpsDraw) {
    st.isIdle || d.idleRoll < IdleStartChance
  }

  /** One update of a vehicle on its route, `interval` seconds after the last. */
  function UpdateVehicle(st: VehicleState, d: GpsDraw, interval: real, lo: real, hi: real,
                         bearing: (Waypoint, Waypoint) -> real): (r: (VehicleState, GpsReading))
    requires OnRoute(st)
    ensures var (next, reading) := r;
      var n := |st.waypoints|;
      && next.routeKey == st.routeKey && next.waypoints == st.waypoints
      && 0 <= next.wpIdx < n && next.progress < 1.0
      && (0.0 <= lo ==> OnRoute(next))
      // idle tick: standing still, the timer runs down
      && (IdlesThisTick(st, d) ==>
            && next.speed == 0.0 && next.progress == st.progress && next.wpIdx == st.wpIdx
            && next.idleTimer == (if st.isIdle then st.idleTimer else d.idleDuration as real) - interval
            && (next.isIdle <==> next.idleTimer > 0.0))
      && (!st.isIdle && IdlesThisTick(st, d) && ValidGpsDraw(d) ==>
            MinIdleDuration as real <= next.idleTimer + interval <= MaxIdleDuration as real)
      // moving tick: jittered, clamped speed; progress wraps to the next waypoint
      && (!IdlesThisTick(st, d) ==>
            && !next.isIdle && next.idleTimer == st.idleTimer
            && next.speed == Clamp(lo, hi, st.speed + d.speedDelta)
            && (lo <= hi ==> lo <= next.speed <= hi)
            && (lo <= st.speed + d.speedDelta <= hi ==> next.speed == st.speed + d.speedDelta)
            && var advanced := st.progress + ProgressPerSpeed * (next.speed / ReferenceSpeed);
               if advanced >= 1.0 then next.progress == 0.0 && next.wpIdx == (st.wpIdx + 1) % n
               else next.progress == advanced && next.wpIdx == st.wpIdx)
      // the reported position lies on the current leg
      && var wp1 := st.waypoints[next.wpIdx];
         var wp2 := st.waypoints[(next.wpIdx + 1) % n];
         && reading.position == Interpolate(wp1, wp2, next.progress)
         && (0.0 <= next.progress ==>
              Between(wp1.lat, wp2.lat, reading.position.lat) && Between(wp1.lng, wp2.lng, reading.position.lng))
         && reading.speed == next.speed && reading.heading == bearing(wp1, wp2) == next.heading
  {
    var n := |st.waypoints|;
    var s1 := if !st.isIdle && d.idleRoll < IdleStartChance
              then st.(isIdle := true, idleTimer := d.idleDuration as real)
              else st;
    var s2 :=
      if s1.isIdle then
        var timer := s1.idleTimer - interval;
        s1.(idleTimer := timer, isIdle := !(timer <= 0.0), speed := 0.0)
      else
        var speed := Clamp(lo, hi, s1.speed + d.speedDelta);
        var progress := s1.progress + ProgressPerSpeed * (speed / ReferenceSpeed);
        if progress >= 1.0 then s1.(speed := speed, progress := 0.0, wpIdx := (s1.wpIdx + 1) % n)
        else s1.(speed := speed, progress := progress);
    var wp1 := s2.waypoints[s2.wpIdx];
    var wp2 := s2.waypoints[(s2.wpIdx + 1) % n];
    var heading := bearing(wp1, wp2);
    (s2.(heading := heading), GpsReading(Interpolate(wp1, wp2, s2.progress), s2.speed, heading))
  }

  /** A vehicle driven through a sequence of updates. */
  function VehicleRun(st: VehicleState, ds: seq<GpsDraw>, interval: real, lo: real, hi: real,
                      bearing: (Waypoint, Waypoint) -> real): VehicleState
    requires OnRoute(st) && 0.0 <= lo
    decreases |ds|
  {
    if |ds| == 0 then st
    else VehicleRun(UpdateVehicle(st, ds[0], interval, lo, hi, bearing).0, ds[1..], interval, lo, hi, bearing)
  }

  /** However long it drives, a vehicle stays on its route with its speed
      either zero (idling) or within the speed range. */
  lemma {:induction false} RunStaysOnRoute(st: VehicleState, ds: seq<GpsDraw>, interval: real, lo: real, hi: real,
                                           bearing: (Waypoint, Waypoint) -> real)
    requires OnRoute(st) && 0.0 <= lo <= hi
    requires st.speed == 0.0 || lo <= st.speed <= hi
    ensures var end := VehicleRun(st, ds, interval, lo, hi, bearing);
      OnRoute(end) && end.waypoints == st.waypoints && (end.speed == 0.0 || lo <= end.speed <= hi)
    decreases |ds|
  {
    if |ds| > 0 {
      var next := UpdateVehicle(st, ds[0], interval, lo, hi, bearing).0;
      RunStaysOnRoute(next, ds[1..], interval, lo, hi, bearing);
    }
  }

  // ---------------------------------------------------------------------
  // Telemetry

  const IdleFuelBurn: real := 0.01
  const MovingFuelBurn: real := 0.03
  const FuelFloor: real := 5.0
  const RefuelBelow: real := 10.0
  const MinRefuel: real := 80.0
  const FullTank: real := 100.0
  const IdleTargetTemp: real := 75.0
  const MovingTargetTemp: real := 90.0
  const TempEasing: real := 0.1
  const MinTemp: real := 60.0
  const MaxTemp: real := 105.0
  const LoadChangeChance: real := 0.02
  const MinLoad: real := 500.0
  const MaxLoad: real := 2500.0

  datatype Telemetry = Telemetry(fuel: real, temp: real, load: real, idleSeconds: real, isIdle: bool)

  /** The random draws of one telemetry update. */
  datatype TelemetryDraw = TelemetryDraw(refuel: real, tempNoise: real, loadRoll: real, newLoad: real)

  predicate ValidTelemetryDraw(d: TelemetryDraw) {
    MinRefuel <= d.refuel <= FullTank && -1.0 <= d.tempNoise <= 1.0
    && 0.0 <= d.loadRoll < 1.0 && MinLoad <= d.newLoad <= MaxLoad
  }

  datatype TelemetryReading = TelemetryReading(fuel: real, temp: real, load: real, idleSeconds: int)

  function TargetTemp(isIdle: bool): real {
    if isIdle then IdleTargetTemp else MovingTargetTemp
  }

  /** The temperature eased a tenth of the way toward the target, before noise. */
  function Eased(temp: real, target: real): real {
    temp + (target - temp) * TempEasing
  }

  function UpdateTelemetry(st: Telemetry, isIdle: bool, d: TelemetryDraw, interval: real): (r: (Telemetry, TelemetryReading))
    ensures var (next, reading) := r;
      && next.isIdle == isIdle
      && next.idleSeconds == (if isIdle then st.idleSeconds + interval else 0.0)
      && reading.idleSeconds == Trunc(next.idleSeconds)
      && (ValidTelemetryDraw(d) ==> RefuelBelow <= next.fuel)
      && (ValidTelemetryDraw(d) && st.fuel <= FullTank ==> next.fuel <= FullTank)
      && (var burnt := st.fuel - (if isIdle then IdleFuelBurn else MovingFuelBurn);
          && (burnt >= RefuelBelow ==> next.fuel == burnt)
          && (burnt < RefuelBelow ==> next.fuel == d.refuel))
      && next.temp == Clamp(MinTemp, MaxTemp, Eased(st.temp, TargetTemp(isIdle)) + d.tempNoise)
      && (var target := TargetTemp(isIdle);
          Abs(next.temp - target) <= 0.9 * Abs(st.temp - target) + Abs(d.tempNoise))
      && MinTemp <= next.temp <= MaxTemp
      && (next.load == if d.loadRoll < LoadChangeChance then d.newLoad else st.load)
      && reading.fuel == next.fuel && reading.temp == next.temp && reading.load == next.load
  {
    var idleSeconds := if isIdle then st.idleSeconds + interval else 0.0;
    var burn := if isIdle then IdleFuelBurn else MovingFuelBurn;
    var fuel := if st.fuel - burn > FuelFloor then st.fuel - burn else FuelFloor;
    var fuel' := if fuel < RefuelBelow then d.refuel else fuel;
    var temp := Eased(st.temp, TargetTemp(isIdle)) + d.tempNoise;
    var temp' := Clamp(MinTemp, MaxTemp, temp);
    var load := if d.loadRoll < LoadChangeChance then d.newLoad else st.load;
    var next := Telemetry(fuel', temp', load, idleSeconds, isIdle);
    (next, TelemetryReading(fuel', temp', load, Trunc(idleSeconds)))
  }

  function Abs(x: real): real {
    if x < 0.0 then -x else x
  }

  /** Without noise, an update closes at least a tenth of the distance to the
      target temperature (the clamp never moves it away, since both targets
      lie inside the allowed range). */
  lemma TemperatureApproachesTarget(st: Telemetry, isIdle: bool, d: TelemetryDraw, interval: real)
    requires d.tempNoise == 0.0
    ensures var target := TargetTemp(isIdle);
      Abs(UpdateTelemetry(st, isIdle, d, interval).0.temp - target) <= 0.9 * Abs(st.temp - target)
  {
    var target := TargetTemp(isIdle);
    var e := Eased(st.temp, target);
    assert e - target == 0.9 * (st.temp - target);
    assert MinTemp <= target <= MaxTemp;
  }

  function TelemetryRun(st: Telemetry, idles: seq<bool>, ds: seq<TelemetryDraw>, interval: real): Telemetry
    requires |idles| == |ds|
    decreases |ds|
  {
    if |ds| == 0 then st
    else TelemetryRun(UpdateTelemetry(st, idles[0], ds[0], interval).0, idles[1..], ds[1..], interval)
  }

  /** Over any run with valid draws, fuel stays within [10, 100] and the engine
      temperature within [60, 105]. */
  lemma {:induction false} TelemetryStaysInRange(st: Telemetry, idles: seq<bool>, ds: seq<TelemetryDraw>, interval: real)
    requires |idles| == |ds| && |ds| > 0
    requires st.fuel <= FullTank
    requires forall i | 0 <= i < |ds| :: ValidTelemetryDraw(ds[i])
    ensures var end := TelemetryRun(st, idles, ds, interval);
      RefuelBelow <= end.fuel <= FullTank && MinTemp <= end.temp <= MaxTemp
    decreases |ds|
  {
    var next := UpdateTelemetry(st, idles[0], ds[0], interval).0;
    if |ds| > 1 {
      assert forall i | 0 <= i < |ds[1..]| :: ds[1..][i] == ds[i + 1];
      TelemetryStaysInRange(next, idles[1..], ds[1..], interval);
    }
  }

  /** `n` intervals of `interval` seconds, added up one by one. */
  function Elapsed(n: nat, interval: real): real {
    if n == 0 then 0.0 else Elapsed(n - 1, interval) + interval
  }

  lemma {:induction false} ElapsedIsProduct(n: nat, interval: real)
    ensures Elapsed(n, interval) == n as real * interval
  {
    if n > 0 {
      ElapsedIsProduct(n - 1, interval);
      assert n as real * interval == (n - 1) as real * interval + interval;
    }
  }

  /** A clock that started at `start` and has run `n` intervals reads `start + n * interval`. */
  lemma ElapsedAfter(clock: real, start: real, n: nat, interval: real)
    requires clock == start + Elapsed(n, interval)
    ensures clock == start + n as real * interval
  {
    ElapsedIsProduct(n, interval);
  }

  lemma {:induction false} IdleRunAddsUp(st: Telemetry, idles: seq<bool>, ds: seq<TelemetryDraw>, interval: real)
    requires |idles| == |ds|
    requires forall i | 0 <= i < |idles| :: idles[i]
    ensures TelemetryRun(st, idles, ds, interval).idleSeconds == st.idleSeconds + Elapsed(|ds|, interval)
    decreases |ds|
  {
    if |ds| > 0 {
      var next := UpdateTelemetry(st, idles[0], ds[0], interval).0;
      assert forall i | 0 <= i < |idles[1..]| :: idles[1..][i] == idles[i + 1];
      IdleRunAddsUp(next, idles[1..], ds[1..], interval);
    }
  }

  /** While a vehicle keeps idling its idle seconds add up, one interval per
      update. */
  lemma IdleSecondsAccumulate(st: Telemetry, idles: seq<bool>, ds: seq<TelemetryDraw>, interval: real)
    requires |idles| == |ds|
    requires forall i | 0 <= i < |idles| :: idles[i]
    ensures TelemetryRun(st, idles, ds, interval).idleSeconds == st.idleSeconds + |ds| as real * interval
  {
    IdleRunAddsUp(st, idles, ds, interval);
    ElapsedAfter(TelemetryRun(st, idles, ds, interval).idleSeconds, st.idleSeconds, |ds|, interval);
  }
}

=== FILE: mock.dfy ===
/** The canned answers given when no language model is configured: a
    keyword dispatch on the lower-cased question, tried in a fixed order.
    Each answer is represented by its tag; the fixed markdown text of the
    answers is not modelled. */
module MockAnswer {
  import opened Text

  datatype Answer = TruckAlertAnalysis | CarbonQuotaTable | IdleLimits | EmissionStandards | GreenZoneRules | Help

  /** The dispatch keywords, in the order they are tried. */
  const TruckKeywords: seq<string> := ["trk-102", "102"]
  const QuotaKeywords: seq<string> := ["carbon", "quota"]
  const IdleKeywords: seq<string> := ["idle", "idling"]
  const StandardKeywords: seq<string> := ["bs-vi", "bs6", "standard"]
  const ZoneKeywords: seq<string> := ["green zone", "zone"]

  predicate AnyOf(q: string, keywords: seq<string>) {
    exists i | 0 <= i < |keywords| :: Contains(q, keywords[i])
  }

  lemma TruckIdImpliesNumber()
    ensures Contains("trk-102", "102")
  {
    assert OccursAt("trk-102", "102", 4);
  }

  lemma GreenZoneImpliesZone()
    ensures Contains("green zone", "zone")
  {
    assert OccursAt("green zone", "zone", 6);
  }

  /** Only "102" and "zone" decide their branches: the longer keyword of each
      pair contains the shorter one. */
  lemma LongerKeywordsSubsumed(q: string)
    ensures AnyOf(q, TruckKeywords) <==> Contains(q, "102")
    ensures AnyOf(q, ZoneKeywords) <==> Contains(q, "zone")
  {
    if Contains(q, "trk-102") {
      TruckIdImpliesNumber();
      ContainsTrans(q, "trk-102", "102");
    }
    if Contains(q, "green zone") {
      GreenZoneImpliesZone();
      ContainsTrans(q, "green zone", "zone");
    }
    assert Contains(q, "102") ==> Contains(q, TruckKeywords[1]);
    assert Contains(q, "zone") ==> Contains(q, ZoneKeywords[1]);
  }

  /** `generate_mock_response`; `context` is accepted and not consulted. */
  function MockResponse(query: string, context: string := ""): (a: Answer)
    ensures var q := Lower(query);
      && (a == TruckAlertAnalysis <==> Contains(q, "102"))
      && (a == CarbonQuotaTable <==> !Contains(q, "102") && AnyOf(q, QuotaKeywords))
      && (a == IdleLimits <==> !Contains(q, "102") && !AnyOf(q, QuotaKeywords) && AnyOf(q, IdleKeywords))
      && (a == EmissionStandards <==>
            !Contains(q, "102") && !AnyOf(q, QuotaKeywords) && !AnyOf(q, IdleKeywords) && AnyOf(q, StandardKeywords))
      && (a == GreenZoneRules <==>
            !Contains(q, "102") && !AnyOf(q, QuotaKeywords) && !AnyOf(q, IdleKeywords) && !AnyOf(q, StandardKeywords)
            && Contains(q, "zone"))
  {
    var q := Lower(query);
    LongerKeywordsSubsumed(q);
    if AnyOf(q, TruckKeywords) then TruckAlertAnalysis
    else if AnyOf(q, QuotaKeywords) then CarbonQuotaTable
    else if AnyOf(q, IdleKeywords) then IdleLimits
    else if AnyOf(q, StandardKeywords) then EmissionStandards
    else if AnyOf(q, ZoneKeywords) then GreenZoneRules
    else Help
  }

  /** Every dispatch keyword, in one list. */
  const AllKeywords: seq<string> := TruckKeywords + QuotaKeywords + IdleKeywords + StandardKeywords + ZoneKeywords

  /** The help text is the answer exactly when no keyword occurs. */
  lemma HelpIffNoKeyword(query: string, context: string)
    ensures MockResponse(query, context) == Help <==> !AnyOf(Lower(query), AllKeywords)
  {
    var q := Lower(query);
    if AnyOf(q, AllKeywords) {
      var i :| 0 <= i < |AllKeywords| && Contains(q, AllKeywords[i]);
      if i < 2 {
        assert Contains(q, TruckKeywords[i]);
      } else if i < 4 {
        assert Contains(q, QuotaKeywords[i - 2]);
      } else if i < 6 {
        assert Contains(q, IdleKeywords[i - 4]);
      } else if i < 9 {
        assert Contains(q, StandardKeywords[i - 6]);
      } else {
        assert Contains(q, ZoneKeywords[i - 9]);
      }
      LongerKeywordsSubsumed(q);
    } else {
      assert !Contains(q, AllKeywords[1]) && !Contains(q, AllKeywords[10]);
      assert forall i | 0 <= i < 2 :: QuotaKeywords[i] == AllKeywords[i + 2];
      assert forall i | 0 <= i < 2 :: IdleKeywords[i] == AllKeywords[i + 4];
      assert forall i | 0 <= i < 3 :: StandardKeywords[i] == AllKeywords[i + 6];
    }
  }

  /** The answer depends on the question only through its lower-cased form. */
  lemma OnlyLoweredQueryMatters(q1: string, q2: string, c1: string, c2: string)
    requires Lower(q1) == Lower(q2)
    ensures MockResponse(q1, c1) == MockResponse(q2, c2)
  {
  }

  /** A question naming the truck in any letter case ("TRK-102", "trk-102",
      "Trk-102", ...) gets the truck analysis, whatever else it mentions. */
  lemma TruckIdWins(query: string, context: string)
    requires Contains(Lower(query), "trk-102")
    ensures MockResponse(query, context) == TruckAlertAnalysis
  {
    TruckIdImpliesNumber();
    ContainsTrans(Lower(query), "trk-102", "102");
  }
}

=== FILE: numeric.dfy ===
/** Python's numeric built-ins as the backend uses them: `min`/`max` on
    integers, `max(lo, min(hi, x))` clamping on floats, and `int()` on a
    float. Floats are modelled as exact reals. */
module Numeric {

  function MinInt(a: int, b: int): int { if a <= b then a else b }

  function MaxInt(a: int, b: int): int { if a >= b then a else b }

  /** `max(lo, min(hi, x))`. */
  function Clamp(lo: real, hi: real, x: real): (r: real)
    ensures lo <= r
    ensures lo <= hi ==> r <= hi
    ensures lo <= x <= hi ==> r == x
    ensures x <= lo ==> r == lo
    ensures lo <= hi && hi <= x ==> r == hi
  {
    var capped := if x < hi then x else hi;
    if lo > capped then lo else capped
  }

  /** Python's `int()` on a float: truncation toward zero. */
  function Trunc(x: real): (n: int)
    ensures 0.0 <= x ==> n as real <= x < n as real + 1.0
    ensures x < 0.0 ==> n as real - 1.0 < x <= n as real
  {
    if x >= 0.0 then x.Floor else -((-x).Floor)
  }
}

=== FILE: retrieval.dfy ===
/** Keyword retrieval over the chunk list of the fallback retriever: term
    counting with keyword boosts, a stable best-first ranking, the context
    text handed to the language model, and the citation names. File
    reading is not modelled: the chunk list is an input. */
module Retrieval {
  import opened Text
  import opened Chunking

  const BoostKeywords: seq<string> := ["idle", "emission", "bs-vi", "violation", "limit", "zone"]
  const BoostWeight: nat := 5
  const DefaultMaxChunks: int := 3
  const CitationChunks: nat := 3
  const NoContextText: string := "No regulatory context available."
  const NoMatchText: string := "No relevant regulatory context found."
  const SourceOpen: string := "[Source: "
  const ContextSeparator: string := "\n\n---\n\n"

  /** The distinct whitespace-separated terms of the lower-cased query. */
  function Terms(query: string): seq<string> {
    Distinct(Words(Lower(query)))
  }

  /** Sum of the occurrence counts of `terms` in `content`. */
  function TermHits(content: string, terms: seq<string>): nat
    decreases |terms|
  {
    if |terms| == 0 then 0 else Count(content, terms[0]) + TermHits(content, terms[1..])
  }

  /** Number of keywords that occur in both the query and the content. */
  function BoostHits(query: string, content: string, keywords: seq<string>): nat
    decreases |keywords|
  {
    if |keywords| == 0 then 0
    else (if Contains(query, keywords[0]) && Contains(content, keywords[0]) then 1 else 0)
         + BoostHits(query, content, keywords[1..])
  }

  lemma {:induction false} TermHitsPositiveIff(content: string, terms: seq<string>)
    ensures TermHits(content, terms) > 0 <==> exists i | 0 <= i < |terms| :: Contains(content, terms[i])
    decreases |terms|
  {
    if |terms| > 0 {
      CountPositiveIff(content, terms[0]);
      TermHitsPositiveIff(content, terms[1..]);
      assert forall i | 1 <= i < |terms| :: terms[i] == terms[1..][i - 1];
    }
  }

  lemma {:induction false} BoostHitsPositiveIff(query: string, content: string, keywords: seq<string>)
    ensures BoostHits(query, content, keywords) > 0 <==>
      exists i | 0 <= i < |keywords| :: Contains(query, keywords[i]) && Contains(content, keywords[i])
    decreases |keywords|
  {
    if |keywords| > 0 {
      BoostHitsPositiveIff(query, content, keywords[1..]);
      assert forall i | 1 <= i < |keywords| :: keywords[i] == keywords[1..][i - 1];
    }
  }

  /** Relevance of a chunk to a query, both compared in lower case: it is
      above zero exactly when one of the query's terms occurs in the chunk,
      or a boost keyword occurs in both query and chunk. */
  function Score(chunk: Chunk, query: string): (r: nat)
    ensures var q := Lower(query);
      var c := Lower(chunk.content);
      r > 0 <==>
        (exists i | 0 <= i < |Terms(query)| :: Contains(c, Terms(query)[i]))
        || (exists i | 0 <= i < |BoostKeywords| :: Contains(q, BoostKeywords[i]) && Contains(c, BoostKeywords[i]))
  {
    var q := Lower(query);
    var c := Lower(chunk.content);
    TermHitsPositiveIff(c, Terms(query));
    BoostHitsPositiveIff(q, c, BoostKeywords);
    TermHits(c, Terms(query)) + BoostWeight * BoostHits(q, c, BoostKeywords)
  }

  /** An empty or blank query matches no chunk. */
  lemma BlankQueryScoresZero(chunk: Chunk, query: string)
    requires AllSpace(query)
    ensures Score(chunk, query) == 0
  {
    var q := Lower(query);
    LowerKeepsSpace(query);
    SpaceHasNoWords(q);
    assert Terms(query) == [];
    forall i | 0 <= i < |BoostKeywords| ensures !Contains(q, BoostKeywords[i]) {
      assert !IsSpace(BoostKeywords[i][0]);
      SpaceHoldsNoText(q, BoostKeywords[i]);
    }
    BoostHitsPositiveIff(q, Lower(chunk.content), BoostKeywords);
  }

  datatype Scored = Scored(score: int, chunk: Chunk)

  /** The chunks with a positive score, paired with it, in chunk order. */
  function ScoreChunks(chunks: seq<Chunk>, query: string): (r: seq<Scored>)
    ensures |r| <= |chunks|
    ensures forall i | 0 <= i < |r| :: r[i].score > 0 && r[i].score == Score(r[i].chunk, query) && r[i].chunk in chunks
    ensures forall c | c in chunks && Score(c, query) > 0 :: Scored(Score(c, query), c) in r
    decreases |chunks|
  {
    if |chunks| == 0 then []
    else
      var rest := ScoreChunks(chunks[..|chunks| - 1], query);
      var c := chunks[|chunks| - 1];
      SplitLast(chunks);
      var s := Score(c, query);
      if s > 0 then rest + [Scored(s, c)] else rest
  }

  predicate SortedDesc(s: seq<Scored>) {
    forall i, j | 0 <= i < j < |s| :: s[i].score >= s[j].score
  }

  /** The entries of `s` with score `v`, in order. */
  function WithScore(s: seq<Scored>, v: int): seq<Scored>
    decreases |s|
  {
    if |s| == 0 then []
    else (if s[0].score == v then [s[0]] else []) + WithScore(s[1..], v)
  }

  lemma {:induction false} WithScoreConcat(a: seq<Scored>, b: seq<Scored>, v: int)
    ensures WithScore(a + b, v) == WithScore(a, v) + WithScore(b, v)
    decreases |a|
  {
    if |a| == 0 {
      assert a + b == b;
    } else {
      var head := if a[0].score == v then [a[0]] else [];
      assert (a + b)[1..] == a[1..] + b;
      assert (a + b)[0] == a[0];
      assert WithScore(a + b, v) == head + WithScore(a[1..] + b, v);
      assert WithScore(a, v) == head + WithScore(a[1..], v);
      WithScoreConcat(a[1..], b, v);
      assert head + (WithScore(a[1..], v) + WithScore(b, v)) == (head + WithScore(a[1..], v)) + WithScore(b, v);
    }
  }

  lemma {:induction false} NoneWithScore(s: seq<Scored>, v: int)
    requires forall i | 0 <= i < |s| :: s[i].score < v
    ensures WithScore(s, v) == []
    decreases |s|
  {
    if |s| > 0 {
      NoneWithScore(s[1..], v);
    }
  }

  /** Places `x` after every entry scoring at least as much. */
  function Insert(s: seq<Scored>, x: Scored): (r: seq<Scored>)
    ensures |r| == |s| + 1
    decreases |s|
  {
    if |s| == 0 then [x]
    else if s[0].score >= x.score then [s[0]] + Insert(s[1..], x)
    else [x] + s
  }

  /** No entry of `s` scores above `v`. */
  predicate Bounded(s: seq<Scored>, v: int) {
    forall i | 0 <= i < |s| :: s[i].score <= v
  }

  lemma {:induction false} InsertMultiset(s: seq<Scored>, x: Scored)
    ensures multiset(Insert(s, x)) == multiset(s) + multiset{x}
    decreases |s|
  {
    if |s| > 0 {
      assert s == [s[0]] + s[1..];
      if s[0].score >= x.score {
        InsertMultiset(s[1..], x);
      }
    }
  }

  lemma {:induction false} InsertBounded(s: seq<Scored>, x: Scored, v: int)
    requires Bounded(s, v) && x.score <= v
    ensures Bounded(Insert(s, x), v)
    decreases |s|
  {
    if |s| > 0 && s[0].score >= x.score {
      InsertBounded(s[1..], x, v);
      var r := Insert(s, x);
      forall i | 0 <= i < |r| ensures r[i].score <= v {
        if i > 0 {
          assert r[i] == Insert(s[1..], x)[i - 1];
        }
      }
    }
  }

  lemma {:induction false} InsertSorted(s: seq<Scored>, x: Scored)
    requires SortedDesc(s)
    ensures SortedDesc(Insert(s, x))
    decreases |s|
  {
    if |s| > 0 {
      var r := Insert(s, x);
      if s[0].score >= x.score {
        var rest := Insert(s[1..], x);
        InsertSorted(s[1..], x);
        InsertBounded(s[1..], x, s[0].score);
        assert r == [s[0]] + rest;
        forall i, j | 0 <= i < j < |r| ensures r[i].score >= r[j].score {
          assert r[j] == rest[j - 1];
          if i > 0 {
            assert r[i] == rest[i - 1];
          }
        }
      } else {
        assert r == [x] + s;
        forall i, j | 0 <= i < j < |r| ensures r[i].score >= r[j].score {
          assert r[j] == s[j - 1];
          if i > 0 {
            assert r[i] == s[i - 1];
          }
        }
      }
    }
  }

  lemma {:induction false} InsertWithScore(s: seq<Scored>, x: Scored, v: int)
    requires SortedDesc(s)
    ensures WithScore(Insert(s, x), v) == WithScore(s, v) + (if x.score == v then [x] else [])
    decreases |s|
  {
    if |s| == 0 {
      assert [x][1..] == [];
    } else if s[0].score >= x.score {
      var rest := Insert(s[1..], x);
      SortedTail(s);
      InsertWithScore(s[1..], x, v);
      assert Insert(s, x) == [s[0]] + rest;
      WithScoreConcat([s[0]], rest, v);
      assert s == [s[0]] + s[1..];
      WithScoreConcat([s[0]], s[1..], v);
    } else {
      assert Insert(s, x) == [x] + s;
      WithScoreConcat([x], s, v);
      assert [x][1..] == [];
      if x.score == v {
        SortedBelowHead(s, v);
        NoneWithScore(s, v);
      }
    }
  }

  lemma SortedTail(s: seq<Scored>)
    requires |s| > 0 && SortedDesc(s)
    ensures SortedDesc(s[1..])
  {
    forall i, j | 0 <= i < j < |s| - 1 ensures s[1..][i].score >= s[1..][j].score {
      assert s[1..][i] == s[i + 1] && s[1..][j] == s[j + 1];
    }
  }

  lemma SortedBelowHead(s: seq<Scored>, v: int)
    requires |s| > 0 && SortedDesc(s) && s[0].score < v
    ensures forall i | 0 <= i < |s| :: s[i].score < v
  {
    forall i | 0 < i < |s| ensures s[i].score < v {
      assert s[0].score >= s[i].score;
    }
  }

  /** Python's stable `sort(key=score, reverse=True)`. */
  function SortByScore(s: seq<Scored>): (r: seq<Scored>)
    ensures SortedDesc(r)
    ensures multiset(r) == multiset(s)
    decreases |s|
  {
    if |s| == 0 then []
    else
      var init := SortByScore(s[..|s| - 1]);
      InsertSorted(init, s[|s| - 1]);
      InsertMultiset(init, s[|s| - 1]);
      SplitLast(s);
      Insert(init, s[|s| - 1])
  }

  /** Stability: among entries of equal score the sorted order is the input
      order. */
  lemma {:induction false} SortIsStable(s: seq<Scored>, v: int)
    ensures WithScore(SortByScore(s), v) == WithScore(s, v)
    decreases |s|
  {
    if |s| > 0 {
      var init := s[..|s| - 1];
      var last := s[|s| - 1];
      var sortedInit := SortByScore(init);
      assert SortByScore(s) == Insert(sortedInit, last);
      SortIsStable(init, v);
      InsertWithScore(sortedInit, last, v);
      SplitLast(s);
      WithScoreConcat(init, [last], v);
      assert WithScore([last], v) == if last.score == v then [last] else [] by {
        assert [last][1..] == [];
      }
    }
  }

  /** Python's `s[:k]`; a negative `k` counts from the end. */
  function SliceTo<T>(s: seq<T>, k: int): (r: seq<T>)
    ensures k >= 0 ==> |r| <= k
    ensures |r| <= |s| && r == s[..|r|]
    ensures k >= |s| ==> r == s
    ensures 0 <= k <= |s| ==> |r| == k
    ensures k < 0 ==> |r| == if |s| + k >= 0 then |s| + k else 0
  {
    if k >= 0 then (if k <= |s| then s[..k] else s)
    else if |s| + k >= 0 then s[..|s| + k]
    else []
  }

  /** Every entry carries its chunk's positive score and a chunk of the list. */
  predicate Relevant(s: seq<Scored>, chunks: seq<Chunk>, query: string) {
    forall i | 0 <= i < |s| :: s[i].score > 0 && s[i].score == Score(s[i].chunk, query) && s[i].chunk in chunks
  }

  /** All positively scoring chunks, best first, ties in chunk order. */
  function Ranked(chunks: seq<Chunk>, query: string): (ranked: seq<Scored>)
    ensures Relevant(ranked, chunks, query)
    ensures SortedDesc(ranked)
    ensures forall c | c in chunks && Score(c, query) > 0 :: Scored(Score(c, query), c) in ranked
    ensures |ranked| == 0 <==> forall c | c in chunks :: Score(c, query) == 0
  {
    var scored := ScoreChunks(chunks, query);
    var sorted := SortByScore(scored);
    RankedProperties(chunks, query, scored, sorted);
    sorted
  }

  lemma RankedProperties(chunks: seq<Chunk>, query: string, scored: seq<Scored>, sorted: seq<Scored>)
    requires scored == ScoreChunks(chunks, query)
    requires multiset(sorted) == multiset(scored)
    ensures Relevant(sorted, chunks, query)
    ensures forall c | c in chunks && Score(c, query) > 0 :: Scored(Score(c, query), c) in sorted
    ensures |sorted| == 0 <==> forall c | c in chunks :: Score(c, query) == 0
  {
    forall i | 0 <= i < |sorted|
      ensures sorted[i].score > 0 && sorted[i].score == Score(sorted[i].chunk, query) && sorted[i].chunk in chunks
    {
      assert sorted[i] in multiset(scored);
    }
    forall c | c in chunks && Score(c, query) > 0 ensures Scored(Score(c, query), c) in sorted {
      assert Scored(Score(c, query), c) in multiset(sorted);
    }
    if |sorted| == 0 {
      assert scored == [];
    } else {
      assert sorted[0] in multiset(scored);
    }
  }

  /** The ranked chunks handed to the model: the first `maxChunks` of the
      ranking, in Python slice semantics. */
  function TopChunks(chunks: seq<Chunk>, query: string, maxChunks: int): (top: seq<Scored>)
    ensures maxChunks >= 0 ==> |top| <= maxChunks
    ensures Relevant(top, chunks, query)
    ensures SortedDesc(top)
    ensures maxChunks > 0 ==> (|top| == 0 <==> forall c | c in chunks :: Score(c, query) == 0)
  {
    var ranked := Ranked(chunks, query);
    var top := SliceTo(ranked, maxChunks);
    PrefixKeepsRanking(ranked, chunks, query, |top|);
    assert maxChunks > 0 ==> (|top| == 0 <==> |ranked| == 0);
    top
  }

  /** The context chunks are the head of the full ranking. */
  lemma TopIsRankingHead(chunks: seq<Chunk>, query: string, maxChunks: int)
    ensures var top := TopChunks(chunks, query, maxChunks);
      |top| <= |Ranked(chunks, query)| && top == Ranked(chunks, query)[..|top|]
  {
  }

  lemma PrefixKeepsRanking(ranked: seq<Scored>, chunks: seq<Chunk>, query: string, n: nat)
    requires n <= |ranked|
    requires Relevant(ranked, chunks, query) && SortedDesc(ranked)
    ensures Relevant(ranked[..n], chunks, query) && SortedDesc(ranked[..n])
  {
    assert forall i | 0 <= i < n :: ranked[..n][i] == ranked[i];
  }

  /** One context block: the chunk's file stem, then its text. */
  function FormatChunk(s: Scored, stem: string -> string): (r: string)
    ensures |r| > 0 && r[0] == '['
  {
    SourceOpen + stem(s.chunk.source) + "]\n" + s.chunk.content
  }

  lemma JoinKeepsFirstChar(parts: seq<string>, sep: string)
    requires |parts| > 0 && |parts[0]| > 0
    ensures |Join(parts, sep)| > 0 && Join(parts, sep)[0] == parts[0][0]
  {
  }

  /** The context blocks of the selected chunks, in ranked order. */
  function Blocks(top: seq<Scored>, stem: string -> string): (blocks: seq<string>)
    ensures |blocks| == |top|
    ensures forall i | 0 <= i < |top| :: blocks[i] == FormatChunk(top[i], stem)
  {
    seq(|top|, i requires 0 <= i < |top| => FormatChunk(top[i], stem))
  }

  /** Context text for the model: the selected chunks' blocks joined by the
      separator, or one of the two fixed texts. `stem` stands for
      `Path(...).stem`. */
  function GetContext(chunks: seq<Chunk>, query: string, stem: string -> string,
                      maxChunks: int := DefaultMaxChunks): (text: string)
    ensures text == NoContextText <==> |chunks| == 0
    ensures maxChunks == 0 ==> (text == NoMatchText <==> |chunks| > 0)
    ensures maxChunks < 0 ==> (text == NoMatchText <==> |chunks| > 0 && |Ranked(chunks, query)| <= -maxChunks)
    ensures maxChunks > 0 ==>
      (text == NoMatchText <==> |chunks| > 0 && forall c | c in chunks :: Score(c, query) == 0)
    ensures |chunks| > 0 && |TopChunks(chunks, query, maxChunks)| > 0 ==>
      text == Join(Blocks(TopChunks(chunks, query, maxChunks), stem), ContextSeparator)
  {
    if |chunks| == 0 then NoContextText
    else
      var top := TopChunks(chunks, query, maxChunks);
      if |top| == 0 then NoMatchText
      else
        var blocks := Blocks(top, stem);
        JoinKeepsFirstChar(blocks, ContextSeparator);
        Join(blocks, ContextSeparator)
  }

  /** Every part of a join occurs in it. */
  lemma {:induction false} JoinHoldsPart(parts: seq<string>, sep: string, i: int)
    requires 0 <= i < |parts|
    ensures Contains(Join(parts, sep), parts[i])
    decreases |parts|
  {
    var j := Join(parts, sep);
    if |parts| == 1 {
      assert OccursAt(j, parts[0], 0);
    } else if i == 0 {
      assert j[..|parts[0]|] == parts[0];
      assert OccursAt(j, parts[0], 0);
    } else {
      var rest := Join(parts[1..], sep);
      JoinHoldsPart(parts[1..], sep, i - 1);
      assert parts[1..][i - 1] == parts[i];
      var off := |parts[0] + sep|;
      assert j == (parts[0] + sep) + rest;
      assert j[off..off + |rest|] == rest;
      assert OccursAt(j, rest, off);
      ContainsTrans(j, rest, parts[i]);
    }
  }

  /** A block quotes its chunk's text. */
  lemma BlockHoldsContent(s: Scored, stem: string -> string)
    ensures Contains(FormatChunk(s, stem), s.chunk.content)
  {
    var r := FormatChunk(s, stem);
    var off := |SourceOpen + stem(s.chunk.source) + "]\n"|;
    assert r[off..off + |s.chunk.content|] == s.chunk.content;
    assert OccursAt(r, s.chunk.content, off);
  }

  /** The context quotes every selected chunk: its block, and so its text,
      occur in what the model is given. */
  lemma ContextQuotesSelectedChunks(chunks: seq<Chunk>, query: string, stem: string -> string, maxChunks: int)
    requires |chunks| > 0
    ensures var top := TopChunks(chunks, query, maxChunks);
      forall i | 0 <= i < |top| ::
        && Contains(GetContext(chunks, query, stem, maxChunks), FormatChunk(top[i], stem))
        && Contains(GetContext(chunks, query, stem, maxChunks), top[i].chunk.content)
  {
    var top := TopChunks(chunks, query, maxChunks);
    var text := GetContext(chunks, query, stem, maxChunks);
    forall i | 0 <= i < |top|
      ensures Contains(text, FormatChunk(top[i], stem)) && Contains(text, top[i].chunk.content)
    {
      var blocks := Blocks(top, stem);
      JoinHoldsPart(blocks, ContextSeparator, i);
      BlockHoldsContent(top[i], stem);
      ContainsTrans(text, FormatChunk(top[i], stem), top[i].chunk.content);
    }
  }

  /** Reference order for ties: the chunks scoring `v`, paired with their
      score, in the order they were indexed. */
  function ScoredAt(chunks: seq<Chunk>, query: string, v: int): (r: seq<Scored>)
    ensures forall i | 0 <= i < |r| :: r[i].score == v && Score(r[i].chunk, query) == v && r[i].chunk in chunks
    decreases |chunks|
  {
    if |chunks| == 0 then []
    else
      var c := chunks[|chunks| - 1];
      SplitLast(chunks);
      ScoredAt(chunks[..|chunks| - 1], query, v) + (if Score(c, query) == v then [Scored(v, c)] else [])
  }

  /** Scoring keeps the chunk order: the entries scoring `v` are exactly the
      chunks scoring `v`, in the order they were indexed. */
  lemma {:induction false} ScoreChunksTies(chunks: seq<Chunk>, query: string, v: int)
    requires v > 0
    ensures WithScore(ScoreChunks(chunks, query), v) == ScoredAt(chunks, query, v)
    decreases |chunks|
  {
    if |chunks| > 0 {
      var init := chunks[..|chunks| - 1];
      var c := chunks[|chunks| - 1];
      var s := Score(c, query);
      var rest := ScoreChunks(init, query);
      ScoreChunksTies(init, query, v);
      LastTie(rest, Scored(s, c), v);
      assert ScoredAt(chunks, query, v) == ScoredAt(init, query, v) + (if s == v then [Scored(v, c)] else []);
      if s > 0 {
        assert ScoreChunks(chunks, query) == rest + [Scored(s, c)];
      } else {
        assert ScoreChunks(chunks, query) == rest;
      }
    }
  }

  lemma LastTie(rest: seq<Scored>, x: Scored, v: int)
    ensures WithScore(rest + [x], v) == WithScore(rest, v) + (if x.score == v then [x] else [])
  {
    WithScoreConcat(rest, [x], v);
    assert [x][1..] == [];
  }

  /** Ties in the ranking are in indexing order: the chunks scoring `v` appear
      in the ranking in the order they were indexed. */
  lemma RankedTiesInChunkOrder(chunks: seq<Chunk>, query: string, v: int)
    requires v > 0
    ensures WithScore(Ranked(chunks, query), v) == ScoredAt(chunks, query, v)
  {
    SortIsStable(ScoreChunks(chunks, query), v);
    ScoreChunksTies(chunks, query, v);
  }

  /** The selected chunks scoring `v` are the first of the chunks scoring `v`
      in indexing order: a cut never skips an earlier-indexed tie. */
  lemma TopTiesInChunkOrder(chunks: seq<Chunk>, query: string, maxChunks: int, v: int)
    requires v > 0
    ensures var ties := WithScore(TopChunks(chunks, query, maxChunks), v);
      |ties| <= |ScoredAt(chunks, query, v)| && ties == ScoredAt(chunks, query, v)[..|ties|]
  {
    var ranked := Ranked(chunks, query);
    var top := TopChunks(chunks, query, maxChunks);
    TopIsRankingHead(chunks, query, maxChunks);
    assert ranked == top + ranked[|top|..];
    WithScoreConcat(top, ranked[|top|..], v);
    RankedTiesInChunkOrder(chunks, query, v);
  }

  /** Citation name of a chunk: its file stem with underscores as spaces, in
      title case. `stem` and `title` stand for `Path(...).stem` and `str.title`. */
  function CitationName(c: Chunk, stem: string -> string, title: string -> string): string {
    title(UnderscoresToSpaces(stem(c.source)))
  }

  function CitationSet(cs: seq<Chunk>, stem: string -> string, title: string -> string): (names: set<string>)
    ensures |names| <= |cs|
    ensures forall n | n in names :: exists i | 0 <= i < |cs| :: n == CitationName(cs[i], stem, title)
    ensures forall i | 0 <= i < |cs| :: CitationName(cs[i], stem, title) in names
    decreases |cs|
  {
    if |cs| == 0 then {}
    else
      var rest := CitationSet(cs[1..], stem, title);
      CitationSetStep(cs, stem, title, rest);
      {CitationName(cs[0], stem, title)} + rest
  }

  lemma CitationSetStep(cs: seq<Chunk>, stem: string -> string, title: string -> string, rest: set<string>)
    requires |cs| > 0 && |rest| <= |cs| - 1
    requires forall n | n in rest :: exists i | 0 <= i < |cs[1..]| :: n == CitationName(cs[1..][i], stem, title)
    requires forall i | 0 <= i < |cs[1..]| :: CitationName(cs[1..][i], stem, title) in rest
    ensures var names := {CitationName(cs[0], stem, title)} + rest;
      && |names| <= |cs|
      && (forall n | n in names :: exists i | 0 <= i < |cs| :: n == CitationName(cs[i], stem, title))
      && (forall i | 0 <= i < |cs| :: CitationName(cs[i], stem, title) in names)
  {
    var first := CitationName(cs[0], stem, title);
    AddOneBound(first, rest);
    forall n | n in {first} + rest ensures exists i | 0 <= i < |cs| :: n == CitationName(cs[i], stem, title) {
      NameFromTail(cs, stem, title, rest, n);
    }
    forall i | 0 < i < |cs| ensures CitationName(cs[i], stem, title) in {first} + rest {
      assert cs[i] == cs[1..][i - 1];
    }
  }

  lemma AddOneBound(x: string, s: set<string>)
    ensures |{x} + s| <= |s| + 1
  {
  }

  lemma NameFromTail(cs: seq<Chunk>, stem: string -> string, title: string -> string, rest: set<string>, n: string)
    requires |cs| > 0
    requires forall n | n in rest :: exists i | 0 <= i < |cs[1..]| :: n == CitationName(cs[1..][i], stem, title)
    requires n == CitationName(cs[0], stem, title) || n in rest
    ensures exists i | 0 <= i < |cs| :: n == CitationName(cs[i], stem, title)
  {
    if n == CitationName(cs[0], stem, title) {
      assert 0 < |cs|;
    } else {
      var i :| 0 <= i < |cs[1..]| && n == CitationName(cs[1..][i], stem, title);
      assert cs[1..][i] == cs[i + 1];
    }
  }

  /** Citations: the distinct names of the first three chunks of the list.
      The query is accepted but does not influence the result. */
  function GetCitations(chunks: seq<Chunk>, query: string, stem: string -> string, title: string -> string)
    : (names: set<string>)
    ensures |names| <= CitationChunks
    ensures forall n | n in names ::
      exists i | 0 <= i < |chunks| && i < CitationChunks :: n == CitationName(chunks[i], stem, title)
    ensures forall i | 0 <= i < |chunks| && i < CitationChunks :: CitationName(chunks[i], stem, title) in names
  {
    var first := if |chunks| <= CitationChunks then chunks else chunks[..CitationChunks];
    assert forall i | 0 <= i < |first| :: first[i] == chunks[i];
    CitationSet(first, stem, title)
  }

  lemma CitationsIgnoreQuery(chunks: seq<Chunk>, q1: string, q2: string, stem: string -> string, title: string -> string)
    ensures GetCitations(chunks, q1, stem, title) == GetCitations(chunks, q2, stem, title)
  {
  }
}

=== FILE: sanitize.dfy ===
/** The prompt-injection screen applied to chat queries before they reach
    the language model. The regular-expression engine is not modelled: the
    screen is parameterised by `search(pattern, text)`, standing for
    Python's `re.search`. */
module Sanitize {
  import opened Text

  const MaxQueryLength: nat := 500

  /** The blocked patterns, in the order they are tried. */
  const InjectionPatterns: seq<string> := [
    "ignore\\s+(previous|all|above|prior)\\s+(instructions?|prompts?|rules?)",
    "reveal\\s+(system|internal|secret|hidden)\\s+(prompt|instructions?|key|config)",
    "(show|print|display|output)\\s+(system\\s+prompt|instructions|config)",
    "act\\s+as\\s+if\\s+you\\s+have\\s+no\\s+restrictions",
    "pretend\\s+you\\s+are\\s+(not|no\\s+longer)\\s+(an?\\s+)?ai",
    "(what|show|reveal)\\s+(is|are)\\s+your\\s+(system|initial)\\s+(prompt|instructions)",
    "\\bsudo\\b",
    "\\b(api.?key|secret.?key|password|credentials|connection.?string)\\b"
  ]

  /** The text the patterns are matched against: lower-cased, then stripped. */
  function Normalised(query: string): string {
    Strip(Lower(query))
  }

  /** Tries the patterns in order and stops at the first hit. */
  function FirstMatch(patterns: seq<string>, text: string, search: (string, string) -> bool): (r: bool)
    ensures r <==> exists i | 0 <= i < |patterns| :: search(patterns[i], text)
    decreases |patterns|
  {
    if |patterns| == 0 then false
    else if search(patterns[0], text) then true
    else
      var rest := FirstMatch(patterns[1..], text, search);
      assert forall i | 1 <= i < |patterns| :: patterns[i] == patterns[1..][i - 1];
      rest
  }

  /** Returns (sanitised query, is_safe). A flagged query comes back unchanged
      and unsafe; a safe one is cut to its first 500 characters. */
  function SanitizeQuery(query: string, search: (string, string) -> bool): (r: (string, bool))
    ensures !r.1 <==> exists i | 0 <= i < |InjectionPatterns| :: search(InjectionPatterns[i], Normalised(query))
    ensures !r.1 ==> r.0 == query
    ensures r.1 ==> |r.0| == (if |query| <= MaxQueryLength then |query| else MaxQueryLength)
    ensures r.1 ==> r.0 == query[..|r.0|]
    ensures r.1 && |query| <= MaxQueryLength ==> r.0 == query
  {
    ScreenWith(InjectionPatterns, query, search)
  }

  /** The screen for a given pattern list. */
  function ScreenWith(patterns: seq<string>, query: string, search: (string, string) -> bool): (r: (string, bool))
    ensures !r.1 <==> exists i | 0 <= i < |patterns| :: search(patterns[i], Normalised(query))
    ensures !r.1 ==> r.0 == query
    ensures r.1 ==> |r.0| == (if |query| <= MaxQueryLength then |query| else MaxQueryLength)
    ensures r.1 ==> r.0 == query[..|r.0|]
    ensures r.1 && |query| <= MaxQueryLength ==> r.0 == query
  {
    if FirstMatch(patterns, Normalised(query), search) then (query, false)
    else if |query| > MaxQueryLength then (query[..MaxQueryLength], true)
    else (query, true)
  }

  /** Only the normalised text is screened: queries differing just in letter
      case or surrounding whitespace get the same verdict. */
  lemma VerdictDependsOnNormalisedText(q1: string, q2: string, search: (string, string) -> bool)
    requires Normalised(q1) == Normalised(q2)
    ensures SanitizeQuery(q1, search).1 == SanitizeQuery(q2, search).1
  {
  }
}

=== FILE: schema.dfy ===
/** Value types shared by the emission rules, the fleet simulator and the
    alert feed: the alert kinds and severities the backend emits as strings. */
module Schema {

  /** The `alert_type` strings "HIGH_IDLE", "EMISSION_SPIKE" and "HIGH_EMISSION". */
  datatype AlertType = HighIdle | EmissionSpike | HighEmission

  /** The `alert_severity` strings "INFO", "WARNING" and "CRITICAL". */
  datatype Severity = Info | Warning | Critical
}

=== FILE: text.dfy ===
/** String operations the backend relies on from Python's `str` type:
    `lower`, `strip`, `split(sep)`, `split()`, `join`, `count`, `in` and
    integer formatting. Strings are sequences of characters. */
module Text {

  /** Python's `str.isspace` restricted to the Latin-1 range. */
  predicate IsSpace(c: char) {
    c == ' ' || c == '\t' || c == '\n' || c == '\r' || c == '\U{000B}' || c == '\U{000C}'
    || ('\U{001C}' <= c <= '\U{001F}') || c == '\U{0085}' || c == '\U{00A0}'
  }

  predicate AllSpace(s: string) {
    forall i | 0 <= i < |s| :: IsSpace(s[i])
  }

  function LowerChar(c: char): char {
    if 'A' <= c <= 'Z' then (c as int + 32) as char else c
  }

  /** `str.lower` on ASCII letters; every other character is kept. */
  function Lower(s: string): (r: string)
    ensures |r| == |s|
    ensures forall i | 0 <= i < |s| :: r[i] == LowerChar(s[i])
  {
    seq(|s|, i requires 0 <= i < |s| => LowerChar(s[i]))
  }

  lemma LowerKeepsSpace(s: string)
    ensures AllSpace(Lower(s)) <==> AllSpace(s)
  {
  }

  /** Drops leading whitespace (`str.lstrip`). */
  function LStrip(s: string): (r: string)
    ensures |r| <= |s|
    ensures r == s[|s| - |r|..]
    ensures AllSpace(s[..|s| - |r|])
    ensures r != [] ==> !IsSpace(r[0])
    decreases |s|
  {
    if |s| > 0 && IsSpace(s[0]) then
      var r := LStrip(s[1..]);
      LStripStep(s, r);
      r
    else s
  }

  lemma LStripStep(s: string, r: string)
    requires |s| > 0 && IsSpace(s[0]) && |r| <= |s| - 1
    requires r == s[1..][|s| - 1 - |r|..] && AllSpace(s[1..][..|s| - 1 - |r|])
    ensures r == s[|s| - |r|..] && AllSpace(s[..|s| - |r|])
  {
    var k := |s| - |r|;
    assert s[1..][k - 1..] == s[k..];
    forall i | 0 <= i < k ensures IsSpace(s[..k][i]) {
      if i > 0 {
        assert s[..k][i] == s[1..][..k - 1][i - 1];
      }
    }
  }

  /** Drops trailing whitespace (`str.rstrip`). */
  function RStrip(s: string): (r: string)
    ensures |r| <= |s|
    ensures r == s[..|r|]
    ensures AllSpace(s[|r|..])
    ensures r != [] ==> !IsSpace(r[|r| - 1])
    decreases |s|
  {
    if |s| > 0 && IsSpace(s[|s| - 1]) then
      var r := RStrip(s[..|s| - 1]);
      RStripStep(s, r);
      r
    else s
  }

  lemma RStripStep(s: string, r: string)
    requires |s| > 0 && IsSpace(s[|s| - 1]) && |r| <= |s| - 1
    requires r == s[..|s| - 1][..|r|] && AllSpace(s[..|s| - 1][|r|..])
    ensures r == s[..|r|] && AllSpace(s[|r|..])
  {
    var k := |r|;
    assert s[..|s| - 1][..k] == s[..k];
    forall i | k <= i < |s| ensures IsSpace(s[i]) {
      if i < |s| - 1 {
        assert s[i] == s[..|s| - 1][k..][i - k];
      }
    }
  }

  /** `str.strip`: drops leading and trailing whitespace. */
  function Strip(s: string): (r: string)
    ensures |r| <= |s|
    ensures r == [] <==> AllSpace(s)
    ensures r != [] ==> !IsSpace(r[0]) && !IsSpace(r[|r| - 1])
  {
    var t := RStrip(s);
    var r := LStrip(t);
    assert r == [] ==> AllSpace(s) by {
      if r == [] {
        assert t[..|t|] == t;
        assert t == [];
        assert s[|t|..] == s;
      }
    }
    assert r != [] ==> !AllSpace(s) by {
      if r != [] {
        assert r[0] == t[|t| - |r|] == s[|t| - |r|];
      }
    }
    r
  }

  lemma RStripSpaceSuffix(s: string, w: string)
    requires AllSpace(w)
    ensures RStrip(s + w) == RStrip(s)
    decreases |w|
  {
    if |w| > 0 {
      var w' := w[..|w| - 1];
      assert (s + w)[..|s + w| - 1] == s + w';
      RStripSpaceSuffix(s, w');
    } else {
      assert s + w == s;
    }
  }

  /** Trailing whitespace never changes what `strip` keeps. */
  lemma StripSpaceSuffix(s: string, w: string)
    requires AllSpace(w)
    ensures Strip(s + w) == Strip(s)
  {
    RStripSpaceSuffix(s, w);
  }

  /** `sub` occurs in `s` starting at position `i`. */
  predicate OccursAt(s: string, sub: string, i: int) {
    0 <= i && i + |sub| <= |s| && s[i..i + |sub|] == sub
  }

  /** Python's `sub in s`. */
  predicate Contains(s: string, sub: string) {
    exists i | 0 <= i <= |s| - |sub| :: OccursAt(s, sub, i)
  }

  lemma ContainsTail(s: string, sub: string)
    requires |s| > 0 && Contains(s[1..], sub)
    ensures Contains(s, sub)
  {
    var i :| 0 <= i <= |s[1..]| - |sub| && OccursAt(s[1..], sub, i);
    assert s[i + 1..i + 1 + |sub|] == s[1..][i..i + |sub|];
    assert OccursAt(s, sub, i + 1);
  }

  /** Containment is transitive: a string holding `mid` holds everything `mid` holds. */
  lemma ContainsTrans(s: string, mid: string, sub: string)
    requires Contains(s, mid) && Contains(mid, sub)
    ensures Contains(s, sub)
  {
    var i :| 0 <= i <= |s| - |mid| && OccursAt(s, mid, i);
    var j :| 0 <= j <= |mid| - |sub| && OccursAt(mid, sub, j);
    forall k | 0 <= k < |sub| ensures s[i + j + k] == sub[k] {
      assert s[i..i + |mid|][j + k] == s[i + j + k];
      assert mid[j..j + |sub|][k] == mid[j + k];
    }
    assert s[i + j..i + j + |sub|] == sub;
    assert OccursAt(s, sub, i + j);
  }

  /** A string made only of whitespace holds no text with a visible character. */
  lemma SpaceHoldsNoText(s: string, sub: string)
    requires AllSpace(s) && !AllSpace(sub)
    ensures !Contains(s, sub)
  {
    var k :| 0 <= k < |sub| && !IsSpace(sub[k]);
    forall i | 0 <= i <= |s| - |sub| ensures !OccursAt(s, sub, i) {
      assert s[i..i + |sub|][k] == s[i + k];
    }
  }

  /** Python's `str.count(sub)`: non-overlapping occurrences scanned left to
      right; an empty `sub` is counted at each of the `|s| + 1` positions. */
  function Count(s: string, sub: string): (r: nat)
    decreases |s|
  {
    if |sub| == 0 then |s| + 1
    else if |s| < |sub| then 0
    else if OccursAt(s, sub, 0) then 1 + Count(s[|sub|..], sub)
    else Count(s[1..], sub)
  }

  /** An occurrence that does not start at the head lies in the tail. */
  lemma ContainsPastHead(s: string, sub: string)
    requires |s| > 0 && !OccursAt(s, sub, 0) && Contains(s, sub)
    ensures Contains(s[1..], sub)
  {
    var i :| 0 <= i <= |s| - |sub| && OccursAt(s, sub, i);
    OccursPastHead(s, sub, i);
    assert s[1..][i - 1..i - 1 + |sub|] == s[i..i + |sub|];
    assert OccursAt(s[1..], sub, i - 1);
  }

  lemma OccursPastHead(s: string, sub: string, i: int)
    requires OccursAt(s, sub, i) && !OccursAt(s, sub, 0)
    ensures i > 0
  {
  }

  /** A term is counted at least once exactly when it occurs. */
  lemma {:induction false} CountPositiveIff(s: string, sub: string)
    ensures Count(s, sub) > 0 <==> Contains(s, sub)
    decreases |s|
  {
    if |sub| == 0 {
      assert OccursAt(s, sub, 0);
    } else if |s| < |sub| {
    } else if OccursAt(s, sub, 0) {
    } else {
      CountPositiveIff(s[1..], sub);
      if Contains(s, sub) {
        ContainsPastHead(s, sub);
      } else if Contains(s[1..], sub) {
        ContainsTail(s, sub);
      }
    }
  }

  /** Python's `sep.join(parts)`. */
  function Join(parts: seq<string>, sep: string): string
    decreases |parts|
  {
    if |parts| == 0 then ""
    else if |parts| == 1 then parts[0]
    else parts[0] + sep + Join(parts[1..], sep)
  }

  /** Python's `s.split(sep)` for a non-empty separator (an empty one raises). */
  function Split(s: string, sep: string): (r: seq<string>)
    requires |sep| > 0
    ensures |r| > 0
    ensures |r[0]| <= |s| && r[0] == s[..|r[0]|]
    decreases |s|
  {
    if |s| < |sep| then [s]
    else if OccursAt(s, sep, 0) then [""] + Split(s[|sep|..], sep)
    else
      var rest := Split(s[1..], sep);
      [[s[0]] + rest[0]] + rest[1..]
  }

  /** Joining the pieces back with the separator restores the string. */
  lemma {:induction false} SplitJoin(s: string, sep: string)
    requires |sep| > 0
    ensures Join(Split(s, sep), sep) == s
    decreases |s|
  {
    if |s| < |sep| {
    } else if OccursAt(s, sep, 0) {
      var rest := Split(s[|sep|..], sep);
      SplitJoin(s[|sep|..], sep);
      JoinCons("", rest, sep);
      PrefixThenRest(s, sep);
    } else {
      var rest := Split(s[1..], sep);
      SplitJoin(s[1..], sep);
      JoinExtendHead(s[0], rest, sep);
      FirstThenRest(s);
    }
  }

  lemma JoinCons(h: string, rest: seq<string>, sep: string)
    requires |rest| > 0
    ensures Join([h] + rest, sep) == h + sep + Join(rest, sep)
  {
    assert ([h] + rest)[1..] == rest;
  }

  /** Growing the first piece by one character grows the joined string by it. */
  lemma JoinExtendHead(c: char, rest: seq<string>, sep: string)
    requires |rest| > 0
    ensures Join([[c] + rest[0]] + rest[1..], sep) == [c] + Join(rest, sep)
  {
    var r := [[c] + rest[0]] + rest[1..];
    assert r[0] == [c] + rest[0];
    assert r[1..] == rest[1..];
    if |rest| > 1 {
      assert Join(r, sep) == ([c] + rest[0]) + sep + Join(rest[1..], sep);
      assert Join(rest, sep) == rest[0] + sep + Join(rest[1..], sep);
    }
  }

  lemma PrefixThenRest(s: string, sep: string)
    requires OccursAt(s, sep, 0)
    ensures s == sep + s[|sep|..]
  {
  }

  lemma FirstThenRest(s: string)
    requires |s| > 0
    ensures s == [s[0]] + s[1..]
  {
  }

  /** No piece of `pieces` contains `sep`. */
  predicate PiecesFree(pieces: seq<string>, sep: string) {
    forall k | 0 <= k < |pieces| :: !Contains(pieces[k], sep)
  }

  lemma PiecesFreeCons(h: string, rest: seq<string>, sep: string)
    requires !Contains(h, sep) && PiecesFree(rest, sep)
    ensures PiecesFree([h] + rest, sep)
  {
    var r := [h] + rest;
    forall k | 0 <= k < |r| ensures !Contains(r[k], sep) {
      if k > 0 {
        assert r[k] == rest[k - 1];
      }
    }
  }

  lemma PiecesFreeTail(rest: seq<string>, sep: string)
    requires |rest| > 0 && PiecesFree(rest, sep)
    ensures PiecesFree(rest[1..], sep)
  {
    forall k | 0 <= k < |rest| - 1 ensures !Contains(rest[1..][k], sep) {
      assert rest[1..][k] == rest[k + 1];
    }
  }

  /** A string too short for `sep` does not contain it. */
  lemma ShortHoldsNothing(s: string, sep: string)
    requires |s| < |sep|
    ensures !Contains(s, sep)
  {
  }

  lemma NotOccursAt(s: string, sub: string, j: int)
    requires !Contains(s, sub) && 0 <= j <= |s| - |sub|
    ensures !OccursAt(s, sub, j)
  {
  }

  /** Prepending a character that does not start an occurrence adds none. */
  lemma ContainsCons(c: char, t: string, s: string, sep: string)
    requires |sep| > 0 && |[c] + t| <= |s| && [c] + t == s[..|[c] + t|]
    requires !OccursAt(s, sep, 0) && !Contains(t, sep)
    ensures !Contains([c] + t, sep)
  {
    var head := [c] + t;
    forall i | 0 <= i <= |head| - |sep| ensures !OccursAt(head, sep, i) {
      if i == 0 {
        assert head[..|sep|] == s[..|sep|];
      } else {
        var j := i - 1;
        NotOccursAt(t, sep, j);
        assert head[i..i + |sep|] == t[j..j + |sep|];
      }
    }
  }

  /** No piece of a split contains the separator. */
  lemma {:induction false} SplitPiecesFree(s: string, sep: string)
    requires |sep| > 0
    ensures PiecesFree(Split(s, sep), sep)
    decreases |s|
  {
    if |s| < |sep| {
      ShortHoldsNothing(s, sep);
      PiecesFreeCons(s, [], sep);
      assert [s] + [] == [s];
    } else if OccursAt(s, sep, 0) {
      SplitPiecesFree(s[|sep|..], sep);
      ShortHoldsNothing("", sep);
      PiecesFreeCons("", Split(s[|sep|..], sep), sep);
    } else {
      var rest := Split(s[1..], sep);
      SplitPiecesFree(s[1..], sep);
      PiecesFreeTail(rest, sep);
      ContainsCons(s[0], rest[0], s, sep);
      PiecesFreeCons([s[0]] + rest[0], rest[1..], sep);
    }
  }

  /** Length of the run of non-whitespace characters at the front of `s`. */
  function WordLength(s: string): (n: nat)
    ensures n <= |s|
    ensures forall i | 0 <= i < n :: !IsSpace(s[i])
    ensures n < |s| ==> IsSpace(s[n])
    decreases |s|
  {
    if |s| == 0 || IsSpace(s[0]) then 0 else 1 + WordLength(s[1..])
  }

  /** No character of `w` is whitespace. */
  predicate NoSpace(w: string) {
    forall i | 0 <= i < |w| :: !IsSpace(w[i])
  }

  /** Python's `s.split()`: the maximal runs of non-whitespace characters. */
  function Words(s: string): (r: seq<string>)
    ensures forall k | 0 <= k < |r| :: r[k] != [] && NoSpace(r[k])
    decreases |s|
  {
    if |s| == 0 then []
    else if IsSpace(s[0]) then Words(s[1..])
    else
      var n := WordLength(s);
      [s[..n]] + Words(s[n..])
  }

  /** A whitespace-only string has no words. */
  lemma {:induction false} SpaceHasNoWords(s: string)
    requires AllSpace(s)
    ensures Words(s) == []
    decreases |s|
  {
    if |s| > 0 {
      SpaceHasNoWords(s[1..]);
    }
  }

  /** The elements of `s` in first-occurrence order, each once (a Python `set`
      of them; only membership and the sum over it matter). */
  function Distinct(s: seq<string>): (r: seq<string>)
    ensures forall x :: x in r <==> x in s
    ensures forall i, j | 0 <= i < j < |r| :: r[i] != r[j]
    decreases |s|
  {
    if |s| == 0 then []
    else
      var rest := Distinct(s[..|s| - 1]);
      if s[|s| - 1] in rest then rest else rest + [s[|s| - 1]]
  }

  function DigitChar(d: int): char
    requires 0 <= d < 10
  {
    "0123456789"[d]
  }

  /** Decimal text of a natural number, as an f-string renders it. */
  function NatToString(n: nat): (r: string)
    ensures |r| > 0
    ensures forall i | 0 <= i < |r| :: '0' <= r[i] <= '9'
    decreases n
  {
    if n < 10 then [DigitChar(n)] else NatToString(n / 10) + [DigitChar(n % 10)]
  }

  /** `s.replace("_", " ")`. */
  function UnderscoresToSpaces(s: string): (r: string)
    ensures |r| == |s|
    ensures forall i | 0 <= i < |s| :: r[i] == (if s[i] == '_' then ' ' else s[i])
  {
    seq(|s|, i requires 0 <= i < |s| => if s[i] == '_' then ' ' else s[i])
  }

  // Facts about sequences that the proofs elsewhere use as single steps.

  lemma SplitLast<T>(s: seq<T>)
    requires |s| > 0
    ensures s == s[..|s| - 1] + [s[|s| - 1]]
  {
  }

  lemma Regroup<T>(a: seq<T>, b: seq<T>, c: seq<T>)
    ensures a + (b + c) == (a + b) + c
  {
  }

  lemma AppendedLast<T>(a: seq<T>, x: T)
    ensures (a + [x])[|a|] == x && (a + [x])[..|a|] == a
  {
  }

  lemma ShiftFirst<T>(done: seq<T>, rest: seq<T>)
    requires |rest| > 0
    ensures done + rest == (done + [rest[0]]) + rest[1..]
  {
  }
}

=== FILE: transforms.dfy ===
/** The per-reading emission and alert rules of the streaming pipeline:
    the speed-penalty curve, the CO2 formula, the alert classifier and the
    inline per-row expression the emission table is actually built from.
    Python floats are modelled as exact reals. */
module Transforms {
  import opened Wrappers
  import opened Schema
  import opened Numeric

  const BaseEmissionFactor: real := 650.0     // g/km, unloaded at optimal speed
  const LoadPenaltyPer1000Kg: real := 25.0    // g/km per tonne of cargo
  const OptimalSpeedMin: real := 40.0         // km/h
  const OptimalSpeedMax: real := 70.0         // km/h
  const SpeedPenaltyFactor: real := 2.5
  const HighSpeedSpan: real := 50.0           // km/h over the band for one full factor
  const IdleEmissionRate: real := 8.5         // g CO2 per second idling
  const IdleCapSeconds: int := 10             // idle seconds charged per reading
  const IdleWarningSeconds: int := 60
  const IdleCriticalSeconds: int := 120
  const EmissionSpikeThreshold: real := 35.0  // g/km
  const SpikeMinSpeed: real := 5.0            // km/h
  const StationarySpeed: real := 1.0          // km/h; below this the truck is idling
  const ReadingDistanceKm: real := 0.1        // assumed distance between readings

  /** Emission multiplier for driving at `speed`: 1 inside the optimal band,
      growing linearly with the distance below or above it. */
  function SpeedPenalty(speed: real): (p: real)
    ensures p == 1.0 <==> OptimalSpeedMin <= speed <= OptimalSpeedMax
    ensures p >= 1.0
  {
    if OptimalSpeedMin <= speed <= OptimalSpeedMax then 1.0
    else if speed < OptimalSpeedMin then
      1.0 + (OptimalSpeedMin - speed) / OptimalSpeedMin * SpeedPenaltyFactor
    else
      1.0 + (speed - OptimalSpeedMax) / HighSpeedSpan * SpeedPenaltyFactor
  }

  /** The penalty falls towards the band from below, rises away from it above,
      and both edges meet the band's value of 1. */
  lemma SpeedPenaltyShape(s1: real, s2: real)
    ensures SpeedPenalty(OptimalSpeedMin) == 1.0 && SpeedPenalty(OptimalSpeedMax) == 1.0
    ensures s1 <= s2 <= OptimalSpeedMin ==> SpeedPenalty(s1) >= SpeedPenalty(s2)
    ensures OptimalSpeedMax <= s1 <= s2 ==> SpeedPenalty(s1) <= SpeedPenalty(s2)
  {
  }

  /** (co2_grams, co2_rate_g_per_km) of one reading. */
  datatype Emission = Emission(grams: real, rate: real)

  /** Base rate plus the load penalty, before any speed penalty (g/km). */
  function LoadedRate(loadKg: real): real {
    BaseEmissionFactor + loadKg / 1000.0 * LoadPenaltyPer1000Kg
  }

  /** CO2 of one reading: idling trucks are charged per idle second (at most
      ten seconds' worth) and have no per-km rate; moving trucks are charged
      the loaded, speed-penalised rate over the reading's distance. */
  function Co2Emission(speed: real, loadKg: real, idleSeconds: int, distanceKm: real := ReadingDistanceKm): (e: Emission)
    ensures speed < StationarySpeed ==> e.rate == 0.0
    ensures speed < StationarySpeed && 0 <= idleSeconds ==> 0.0 <= e.grams <= 85.0
    ensures speed < StationarySpeed && idleSeconds <= IdleCapSeconds ==> e.grams == IdleEmissionRate * idleSeconds as real
    ensures speed < StationarySpeed && idleSeconds >= IdleCapSeconds ==> e.grams == 85.0
    ensures speed >= StationarySpeed ==> e.grams == e.rate * distanceKm
    ensures speed >= StationarySpeed && loadKg >= 0.0 ==> e.rate >= BaseEmissionFactor + loadKg / 40.0
  {
    if speed < StationarySpeed then
      Emission(IdleEmissionRate * MinInt(idleSeconds, IdleCapSeconds) as real, 0.0)
    else
      var rate := LoadedRate(loadKg) * SpeedPenalty(speed);
      Emission(rate * distanceKm, rate)
  }

  /** The alert text, kept as the values it is formatted from. */
  datatype AlertMessage =
    | IdleCriticalMessage(vehicleId: string, idleSeconds: int)
    | IdleWarningMessage(vehicleId: string, idleSeconds: int)
    | SpikeMessage(vehicleId: string, rate: real)
  {
    function Vehicle(): string {
      match this
      case IdleCriticalMessage(v, _) => v
      case IdleWarningMessage(v, _) => v
      case SpikeMessage(v, _) => v
    }
  }

  /** (alert_type, severity, message) */
  datatype AlertDecision = AlertDecision(alertType: Option<AlertType>, severity: Severity, message: Option<AlertMessage>)

  predicate IsSpike(speed: real, rate: real) {
    rate > EmissionSpikeThreshold && speed > SpikeMinSpeed
  }

  /** Priority-ordered classifier: a long idle wins over everything, and an
      emission spike is only looked at while the idle time is under a minute. */
  function DetermineAlert(speed: real, idleSeconds: int, rate: real, vehicleId: string): (a: AlertDecision)
    ensures idleSeconds >= IdleCriticalSeconds ==> a.alertType == Some(HighIdle) && a.severity == Critical
    ensures IdleWarningSeconds <= idleSeconds < IdleCriticalSeconds ==> a.alertType == Some(HighIdle) && a.severity == Warning
    ensures idleSeconds < IdleWarningSeconds ==> a.alertType != Some(HighIdle)
    ensures idleSeconds < IdleWarningSeconds ==> (a.alertType == Some(EmissionSpike) <==> IsSpike(speed, rate))
    ensures a.alertType == Some(EmissionSpike) ==> a.severity == Warning
    ensures a.alertType == None <==> a.severity == Info
    ensures a.alertType == None <==> a.message == None
    ensures a.alertType == None <==> idleSeconds < IdleWarningSeconds && !IsSpike(speed, rate)
    ensures a.message.Some? ==> a.message.value.Vehicle() == vehicleId
    ensures idleSeconds >= IdleCriticalSeconds ==> a.message == Some(IdleCriticalMessage(vehicleId, idleSeconds))
    ensures IdleWarningSeconds <= idleSeconds < IdleCriticalSeconds ==> a.message == Some(IdleWarningMessage(vehicleId, idleSeconds))
    ensures a.alertType == Some(EmissionSpike) ==> a.message == Some(SpikeMessage(vehicleId, rate))
  {
    if idleSeconds >= IdleCriticalSeconds then
      AlertDecision(Some(HighIdle), Critical, Some(IdleCriticalMessage(vehicleId, idleSeconds)))
    else if idleSeconds >= IdleWarningSeconds then
      AlertDecision(Some(HighIdle), Warning, Some(IdleWarningMessage(vehicleId, idleSeconds)))
    else if IsSpike(speed, rate) then
      AlertDecision(Some(EmissionSpike), Warning, Some(SpikeMessage(vehicleId, rate)))
    else
      AlertDecision(None, Info, None)
  }

  /** Chaining the two helpers: any loaded truck faster than 5 km/h that has
      idled under a minute is flagged as an emission spike, because its rate
      can never fall to the 35 g/km threshold. */
  lemma MovingTruckAlwaysSpikes(speed: real, loadKg: real, idleSeconds: int, distanceKm: real, vehicleId: string)
    requires speed > SpikeMinSpeed && idleSeconds < IdleWarningSeconds && loadKg >= 0.0
    ensures var a := DetermineAlert(speed, idleSeconds, Co2Emission(speed, loadKg, idleSeconds, distanceKm).rate, vehicleId);
            a.alertType == Some(EmissionSpike) && a.severity == Warning
  {
  }

  /** The joined GPS + telemetry record one emission row is computed from. */
  datatype VehicleState = VehicleState(
    vehicleId: string, timestamp: int, latitude: real, longitude: real,
    speed: real, heading: real, fuelLevelPct: real, engineTempC: real,
    loadKg: real, idleSeconds: int)

  /** One row of the emission table. */
  datatype EmissionRow = EmissionRow(
    vehicleId: string, timestamp: int, latitude: real, longitude: real, speed: real,
    co2Grams: real, co2Rate: real, alertType: Option<AlertType>, alertSeverity: Severity)

  /** The inline expression the emission table is built from. It clips the
      idle seconds at both ends, omits the speed penalty, and derives only
      idle alerts. */
  function ComputeEmissionRow(v: VehicleState): (r: EmissionRow)
    ensures r.vehicleId == v.vehicleId && r.timestamp == v.timestamp
    ensures r.latitude == v.latitude && r.longitude == v.longitude && r.speed == v.speed
    ensures r.alertType != Some(EmissionSpike) && r.alertType != Some(HighEmission)
    ensures r.alertType == None <==> r.alertSeverity == Info
    ensures v.speed < StationarySpeed ==> r.co2Rate == 0.0 && 0.0 <= r.co2Grams <= 85.0
  {
    var stationary := v.speed < StationarySpeed;
    var clipped := MaxInt(0, MinInt(v.idleSeconds, IdleCapSeconds));
    EmissionRow(
      v.vehicleId, v.timestamp, v.latitude, v.longitude, v.speed,
      if stationary then IdleEmissionRate * clipped as real else LoadedRate(v.loadKg) * ReadingDistanceKm,
      if stationary then 0.0 else LoadedRate(v.loadKg),
      if v.idleSeconds >= IdleCriticalSeconds then Some(HighIdle)
      else if v.idleSeconds >= IdleWarningSeconds then Some(HighIdle)
      else None,
      if v.idleSeconds >= IdleCriticalSeconds then Critical
      else if v.idleSeconds >= IdleWarningSeconds then Warning
      else Info)
  }

  /** The row's alert agrees with the classifier's idle branches whatever the
      rate, and is empty where the classifier would look for a spike. */
  lemma RowAlertMatchesIdleBranches(v: VehicleState, rate: real)
    ensures var r := ComputeEmissionRow(v);
            var a := DetermineAlert(v.speed, v.idleSeconds, rate, v.vehicleId);
            (v.idleSeconds >= IdleWarningSeconds ==> r.alertType == a.alertType && r.alertSeverity == a.severity)
            && (v.idleSeconds < IdleWarningSeconds ==> r.alertType == None && r.alertSeverity == Info)
  {
  }

  /** Moving rows use the loaded rate without the speed penalty: the helper's
      rate is the row's rate times the penalty, so the two agree inside the
      optimal band and the helper's is strictly larger outside it. */
  lemma RowRateOmitsSpeedPenalty(v: VehicleState)
    requires v.loadKg >= 0.0 && v.speed >= StationarySpeed
    ensures var r := ComputeEmissionRow(v);
            var e := Co2Emission(v.speed, v.loadKg, v.idleSeconds, ReadingDistanceKm);
            && e.rate == r.co2Rate * SpeedPenalty(v.speed)
            && e.grams == r.co2Grams * SpeedPenalty(v.speed)
            && (OptimalSpeedMin <= v.speed <= OptimalSpeedMax ==> e == Emission(r.co2Grams, r.co2Rate))
            && (!(OptimalSpeedMin <= v.speed <= OptimalSpeedMax) ==> e.rate > r.co2Rate)
  {
    var base := LoadedRate(v.loadKg);
    PenaltyScaling(base, SpeedPenalty(v.speed), ReadingDistanceKm);
  }

  /** Stationary rows agree with the helper whenever the idle time is not
      negative (the row also clips negative idle times to zero). */
  lemma IdleRowMatchesHelper(v: VehicleState)
    requires v.speed < StationarySpeed && v.idleSeconds >= 0
    ensures var r := ComputeEmissionRow(v);
            Co2Emission(v.speed, v.loadKg, v.idleSeconds, ReadingDistanceKm) == Emission(r.co2Grams, r.co2Rate)
  {
  }

  /** Arithmetic behind the comparison: scaling by the penalty commutes with
      scaling by the distance, and a penalty above 1 raises a positive rate. */
  lemma PenaltyScaling(base: real, p: real, d: real)
    requires base > 0.0 && p >= 1.0
    ensures (base * p) * d == (base * d) * p
    ensures p > 1.0 ==> base * p > base
  {
    assert base * p - base == base * (p - 1.0);
  }
}

=== FILE: wrappers.dfy ===
/** The nullable-value wrapper used across the model. */
module Wrappers {

  /** A Python value that may be `None`. */
  datatype Option<+T> = None | Some(value: T)
}
